=== FILE: README.md ===
# ytdlp-to-h265 decision rules in Dafny

ytdlp-to-h265 is a command-line tool. It asks yt-dlp for the formats of
a video and picks the best video-only and audio-only streams. It downloads
them and re-encodes the result to H.265/HEVC with ffmpeg, using a hardware
encoder when the machine has one. Its messages go through a small
translation layer.

This project models the decision logic behind those steps. Probe results,
locale queries and the catalog directory are passed in as plain values.

- `Formats` (formats.dfy): `filter_formats` as a loop that appends to the
  two lists, and `get_best_formats` as a stable descending sort whose head
  is the first maximal element.
- `Hardware` (hardware.dfy): `detect_hardware_acceleration` as a function
  of the platform name and the outcomes of `nvidia-smi`, the PowerShell
  GPU query and `vainfo`. It is checked against an independent rule-table
  reading of the same policy.
- `Transcode` (transcode.dfy):
  - the bitrate and frame-rate planning of `convert_to_hevc`;
  - the per-encoder option branches, including the NVENC max-rate;
  - the `cmd_str` command text, built by a loop over the profile options;
  - the single software retry.
- `Download` (download.dfy):
  - the three `re.sub` calls that strip playlist parameters from a URL;
  - the `-f` selector;
  - the yt-dlp argument list of `download_video`.
- `Localization` (localization.dfy):
  - language detection from the locale;
  - catalog file selection over a set of existing file names;
  - the `I18n` class with its `translations` and `currentLang` fields;
  - the global instance behind `init_i18n` and `_`, as a `Registry` class.
- `Strings` and `Common` hold the Python string and value semantics the
  model relies on:
  - `in` on strings, `split(c)[0]`, `replace(c, "")`;
  - `lower()` on the characters that lower to ASCII letters (the ASCII
    capitals and the Kelvin sign), decimal rendering and parsing;
  - `int()` truncation;
  - missing-versus-`null` dictionary keys.

A JSON key is modelled by `Field`: absent, present with `null`, or
present with a value. The code distinguishes `d.get(k)` from `k in d`, and
the model keeps that difference.

Two behaviours of the code are worth knowing before reading the model:

- Only `FileNotFoundError` is caught around `nvidia-smi` and `vainfo`
  (youtube_downloader.py:145, 188, 201). Any other launch failure of
  those two tools (`LaunchFailed`) escapes `detect_hardware_acceleration`,
  reaches the handler at line 506, and the conversion is abandoned.
  `DetectionTotal` states the condition under which a profile is produced.
- A 1080p video-only format whose `tbr` is `null` gets no plan at all:
  `int(None)` raises. See Findings.

## Model

| member | source | states |
|---|---|---|
| Formats.Classify | youtube_downloader.py:53-58 | A format is video-only iff its `vcodec` is not `"none"` and its `acodec` is `"none"`, audio-only iff the reverse, and otherwise neither. A missing or null codec counts as "not `none`". |
| Formats.OfKind | youtube_downloader.py:52-58 | The formats of one kind are never more than the input, and a format is among them iff it is in the input and of that kind. |
| Formats.FilterFormats | youtube_downloader.py:47-60 | The loop's two lists are exactly the video-only and the audio-only formats of the input, in input order. |
| Formats.OfKindKeepsOrder | youtube_downloader.py:52-58 | Each filtered list is a subsequence of the input, so input order is kept. |
| Formats.FilterSeparates | youtube_downloader.py:53-58 | No format is in both lists. Muxed and codec-less formats are in neither. |
| Formats.Insert | youtube_downloader.py:65-79 | One step of the stable descending sort keeps length and contents. The inserted format goes first unless it ranks below the current head. |
| Formats.InsertKeepsDescending | youtube_downloader.py:65-79 | Inserting into a descending list keeps it descending. |
| Formats.DescendingPairwise | youtube_downloader.py:65-79 | A list descending between neighbours has no element ranked below a later one. |
| Formats.SortDesc | youtube_downloader.py:65-79 | `sorted(..., reverse=True)`: a permutation of the input, in descending order of the lexicographic key. |
| Formats.FirstBestIndex | youtube_downloader.py:65-79 | The position of the first format whose key no other format's key exceeds. |
| Formats.FirstBestUnique | youtube_downloader.py:65-79 | Only one position is the first maximal one. |
| Formats.SortHeadIsFirstBest | youtube_downloader.py:65-79 | The head of the stable sort is the first maximal element in input order, so ties go to the earliest format. |
| Formats.BestOf | youtube_downloader.py:81-89 | `None` exactly when there are no candidates. Otherwise the first maximal candidate. |
| Formats.BestFormats | youtube_downloader.py:81-89 | Each side is `None` exactly when its list is empty, and otherwise the first maximal element of that list. |
| Formats.BestOfKind | youtube_downloader.py:47-89 | The best format of one kind is in the listing and of that kind, and no format of that kind ranks above it. It is `None` iff there is none of that kind. |
| Formats.SelectFormats | youtube_downloader.py:47-89 | Filtering followed by selection gives the best video-only and best audio-only format of the listing. |
| Formats.SelectionIsBest | youtube_downloader.py:47-89 | The chosen video is in the listing, is video-only, and its (height, tbr) key (missing or null as 0) is not below any video candidate's. The same holds for audio by `tbr`. Each is `None` iff there is no candidate. |
| Hardware.Profile | youtube_downloader.py:125-210 | Six fixed profiles. Only the software one has no `hwaccel`, and every profile has two options. |
| Hardware.EncoderNamesDistinct | youtube_downloader.py:125-210 | Different back ends name different encoders. |
| Hardware.DetectHardwareAcceleration | youtube_downloader.py:121-210 | Darwin always gives VideoToolbox, and an unknown platform gives software. Detection raises iff a consulted `nvidia-smi` or `vainfo` launch raised something other than "not found". Software is chosen iff no hardware rule of the platform matched. |
| Hardware.DetectFollowsTable | youtube_downloader.py:121-210 | The nested conditionals decide as the ordered rule table does, falling back to software. Windows order is NVENC, AMD, Intel. Linux order is NVENC, VAAPI. |
| Hardware.DetectionTotal | youtube_downloader.py:135-202 | When no consulted probe raised an unexpected exception, detection always yields a profile. |
| Transcode.HeightTierKbps | youtube_downloader.py:344-353 | The resolution tier is 30000 kbps iff the height is at least 2160, 15000 iff it is 1440 to 2159, 8000 iff 1080 to 1439, 4000 iff 720 to 1079, and 2000 below 720. |
| Transcode.VideoBitrateKbps | youtube_downloader.py:336-356 | Fails only with a null `tbr` or `height`; otherwise the result is a resolution tier, 8000, or the whole part of `tbr`. `VideoBitrateSources` states which case applies. |
| Transcode.AudioBitrateKbps | youtube_downloader.py:359-369 | Fails only with a null `tbr`; otherwise the result is 192 or the whole part of `tbr` or `abr`. `AudioBitratePrecedence` states which case applies. |
| Transcode.FrameRate | youtube_downloader.py:372-374 | A frame rate is planned iff the video format has a non-null `fps`, and it is that value. |
| Transcode.TierMonotone | youtube_downloader.py:344-353 | A taller picture never gets a smaller default bitrate. |
| Transcode.VideoBitrateSources | youtube_downloader.py:336-356 | A non-null `tbr` is used as `int(tbr)`, truncated toward zero whatever its sign. The planned video bitrate fails iff the deciding key is null. It follows the height tier only when `tbr` is missing, and it is 8000 exactly for no format, no keys, a `tbr` of 8000, or a height from 1080 to 1439. |
| Transcode.PlanByHeightTier | youtube_downloader.py:336-356 | With no `tbr`, a 2160p video is planned at `30000k` and a 480p one at `2000k`. |
| Transcode.KnownVideoBitrateKept | youtube_downloader.py:337-339 | A known `tbr` is kept as its whole part. |
| Transcode.AudioBitratePrecedence | youtube_downloader.py:359-369 | The audio bitrate uses `tbr` if present, then `abr`, then 192 kbps. It fails only on a null `tbr`. |
| Transcode.PlanTranscode | youtube_downloader.py:336-374 | Planning succeeds iff both bitrates do. The plan holds their `"<n>k"` texts and the non-null frame rate. |
| Transcode.MaxRateKbps | youtube_downloader.py:401-402 | Fails iff the bitrate text without its `k` is not an optionally signed decimal integer, and then names that text. `MaxRateOfPlannedBitrate` gives its value for a planned bitrate. |
| Transcode.KbpsTextWithoutK | youtube_downloader.py:401-402 | Removing `k` from a planned bitrate gives back its number text. |
| Transcode.TruncThreeHalves | youtube_downloader.py:401-402 | `int(n * 1.5)` equals `(3n) / 2` for a non-negative `n`. |
| Transcode.MaxRateOfPlannedBitrate | youtube_downloader.py:401-402 | The NVENC max-rate parses back the planned bitrate. It is ⌊1.5 × kbps⌋ and never below the bitrate. |
| Transcode.EncoderArgs | youtube_downloader.py:397-411 | Only the NVENC branch can fail, when its max-rate cannot be computed. An unknown encoder gets no options. `EncoderArgsOfProfiles` and `HardwareEncodersKeepBitrate` state what each profile gets. |
| Transcode.EncoderArgsOfProfiles | youtube_downloader.py:397-411 | Every detected profile gets its options without error, and the exact text is stated for each. Software gets `-crf 22 -preset medium -tag:v hvc1`. NVENC gets `-rc:v vbr -cq:v 22`, the bitrate and a max-rate of ⌊1.5n⌋k. VideoToolbox gets `-q:v 50`, the bitrate and `-tag:v hvc1`. AMF gets `-quality quality` and the bitrate. QSV and VAAPI get the bitrate and `-global_quality 22`. |
| Transcode.HardwareEncodersKeepBitrate | youtube_downloader.py:399-411 | Every hardware encoder is given the planned video bitrate. |
| Transcode.NvencMaxRate | youtube_downloader.py:399-402 | NVENC's options carry `-maxrate:v` of `(3n)/2` kbps, which is at least `n`. |
| Transcode.AppendOptions | youtube_downloader.py:387-391 | The loop appends each option followed by a space, and quotes options that hold a space. |
| Transcode.CommandText | youtube_downloader.py:381-413 | The command fails iff the encoder options do, and always starts with `ffmpeg -hwaccel `. `CommandPieces` and `CommandCarriesPlan` state what it holds. |
| Transcode.BuildCommand | youtube_downloader.py:381-413 | The `+=` loop over the profile options builds exactly the command text the model defines. |
| Transcode.CommandPieces | youtube_downloader.py:381-413 | The command carries the encoder, that encoder's options, the audio bitrate and a truthy frame rate. |
| Transcode.CommandCarriesPlan | youtube_downloader.py:381-413 | For every detected profile, the command names the encoder and the planned audio bitrate. Every hardware profile also gets the planned video bitrate. |
| Transcode.SoftwareCommandNamesNoneHwaccel | youtube_downloader.py:381-383 | The software profile's missing `hwaccel` is written as `-hwaccel None`. |
| Transcode.SoftwareHwaccelNotAName | youtube_downloader.py:381-383 | As written, the software profile's hwaccel text has a capital letter, and the software encoder is never retried. |
| Transcode.IntendedHwaccelText | youtube_downloader.py:381-383 | The intended hwaccel text keeps each hardware profile's name, and is lower-case for every profile. |
| Transcode.PrepareConversion | youtube_downloader.py:336-413 | The command is produced iff planning and detection both succeed, and it is then the command text of the plan and the detected profile. |
| Transcode.ShouldRetryInSoftware | youtube_downloader.py:472 | The retry guard holds iff the encoder is not the software profile's encoder. |
| Transcode.ConvertOutcome | youtube_downloader.py:434-499 | One or two encoders are tried, the chosen one first, and a converted file means some run exited with 0. `AtMostOneSoftwareRetry` states the full rule. |
| Transcode.AtMostOneSoftwareRetry | youtube_downloader.py:434-499 | At most two encoders are tried, and the software one at most once. The retry happens iff the first run failed and its encoder was not `libx265`. Success means the last run exited with 0. |
| Transcode.NullTbrAbortsPlanning | youtube_downloader.py:337-339 | As written, a null `tbr` makes planning fail. Read as missing, it gives `8000k`/`160k`. |
| Transcode.NullTbrListingIsSelected | youtube_downloader.py:47-89 | Such a video and audio pair is exactly what selection picks from their listing. |
| Transcode.IntendedVideoBitrateKbps | youtube_downloader.py:336-356 | Agrees with the code whenever the code succeeds, and treats null `tbr`/`height` as missing. |
| Transcode.IntendedAudioBitrateKbps | youtube_downloader.py:359-369 | Agrees with the code whenever it succeeds. A null `tbr` is read as missing: `abr` when present, else 192, and 192 with no audio format. |
| Transcode.IntendedPlanTranscode | youtube_downloader.py:336-374 | A total planner that agrees with the code's plan whenever the code produces one. |
| Download.StripAmpList | youtube_downloader.py:219 | The substitution never lengthens the text. `StripAmpListRemovesAll` states what it removes and `StripAmpListByFields` what it keeps. |
| Download.StripAmpListRemovesAll | youtube_downloader.py:219 | After the `&list=[^&]*` substitution no `&list=` is left. |
| Download.ReplaceQueryList | youtube_downloader.py:220 | The substitution never lengthens the text. `ReplaceQueryListLeavesLast` and `QueryListMatch` state what it leaves. |
| Download.ReplaceQueryListKeepsAmpListOut | youtube_downloader.py:220 | The `\?list=[^&]*&` substitution does not create an `&list=`. |
| Download.ReplaceQueryListLeavesLast | youtube_downloader.py:219-220 | After the first two substitutions, every remaining `?list=` has no `&` after it. |
| Download.DropTrailingQueryList | youtube_downloader.py:221 | The `\?list=[^&]*$` substitution only cuts off a tail. `DropTrailingCutsAtFirstMatch` states where. |
| Download.DropTrailingRemovesAll | youtube_downloader.py:221 | On such a text, the third substitution leaves no `?list=`. |
| Download.StripPlaylist | youtube_downloader.py:219-221 | The cleaned URL is never longer than the URL. `StripPlaylistRemovesLists` states what is removed; `StripPlaylistKeepsHead`, `StripPlaylistKeepsParamBeforeList` and `StripPlaylistKeepsParamAfterList` state what is kept. |
| Download.StripPlaylistRemovesLists | youtube_downloader.py:219-221 | The cleaned URL contains neither `&list=` nor `?list=`. |
| Download.StripPlaylistKeepsPlainUrl | youtube_downloader.py:219-221 | A URL without `list=` is unchanged. |
| Download.StripAmpListKeepsAmpFree | youtube_downloader.py:219 | A text without `&` passes the first substitution unchanged. |
| Download.StripAmpListKeepsHead | youtube_downloader.py:219 | Everything before the first `&` is kept, and the rest is processed alone. |
| Download.StripAmpListByFields | youtube_downloader.py:219 | Split at `&` as `split('&')` does: the first field is kept, and each later field is kept behind its `&` unless it starts with `list=`. |
| Download.StripAmpListAfterAmp | youtube_downloader.py:219 | Behind an `&`, the fields that start with `list=` are dropped and the others are kept with their `&`. |
| Download.StripAmpListDropsLastList | youtube_downloader.py:219 | A last `&list=` parameter is removed, and the text before it is kept. |
| Download.StripAmpListKeepsField | youtube_downloader.py:219 | A last `&` parameter that does not start with `list=` is kept with the text before it. |
| Download.QuerySubstitutionsKeepQueryFree | youtube_downloader.py:220-221 | A text without `?` passes the second and third substitutions unchanged. |
| Download.ReplaceQueryListKeepsHead | youtube_downloader.py:220 | Everything before the first `?` is kept, and the rest is processed alone. |
| Download.DropTrailingKeepsHead | youtube_downloader.py:221 | Everything before the first `?` is kept, and the rest is processed alone. |
| Download.QueryListMatch | youtube_downloader.py:220 | A `?list=` with an `&` after its value becomes `?`, and the text after the `&` is processed on. |
| Download.ReplaceQueryListMovesFieldUp | youtube_downloader.py:220 | In `base?list=<pl>&<f>`, the playlist goes and `f` becomes the first parameter. |
| Download.QueryKept | youtube_downloader.py:220-221 | A query whose first parameter does not start with `list=`, and that has no other `?`, is left alone by both `?list=` substitutions. |
| Download.DropTrailingCutsAtFirstMatch | youtube_downloader.py:221 | The result is a prefix of the text. When shorter, it ends exactly where the first `?list=` with no `&` after it starts, and no such match starts earlier. |
| Download.StripPlaylistKeepsHead | youtube_downloader.py:219-221 | Scheme, host and path (everything before the first `?` or `&`) are kept, and the cleanup works on the rest alone. |
| Download.StripPlaylistKeepsParamBeforeList | youtube_downloader.py:219-221 | `base?v=<id>&list=<pl>` becomes `base?v=<id>`, for any first parameter that does not start with `list=`. |
| Download.StripPlaylistKeepsParamAfterList | youtube_downloader.py:219-221 | `base?list=<pl>&v=<id>` becomes `base?v=<id>`, for any such parameter. |
| Download.FormatSelector | youtube_downloader.py:214-232 | The selector is `vid+aid` with both formats and the single id with one. It is `None`, and nothing is downloaded, with neither. |
| Download.FormatSelectorSplits | youtube_downloader.py:227-228 | A two-format selector splits back at `+` into the two ids. |
| Download.DownloadArgs | youtube_downloader.py:214-263 | There is no command iff there is no format. Otherwise it is the ten yt-dlp arguments, with the selector, `--no-playlist`, the output template and the cleaned URL. |
| Download.DownloadUrlHasNoPlaylist | youtube_downloader.py:218-263 | The URL handed to yt-dlp names no playlist. |
| Localization.DetectSystemLanguage | i18n.py:28-50 | `zh_tw`/`zh_hk` in any letter case gives `zh_TW` and `zh_cn` gives `zh_CN`. Any other locale gives the text before its first `_`, which is the whole locale when it has no `_`. No locale, an empty one or an exception gives `en`. |
| Localization.KelvinSignHongKong | i18n.py:36-40 | `zh_h` followed by the Kelvin sign lowers to `zh_hk` and gives `zh_TW`. |
| Localization.DetectedRegionOnlyForChinese | i18n.py:34-44 | A detected language holds `_` only when it is `zh_TW` or `zh_CN`. |
| Localization.ChineseVariantsIgnoreCase | i18n.py:39-42 | Case variants of the Chinese locales give the same language. |
| Localization.CatalogFileFor | i18n.py:63-91 | The chosen file exists, and the exact file wins when it exists. `None` only when neither the exact file nor `en.json` exists. |
| Localization.FirstExisting | i18n.py:63-91 | The first existing candidate, or `None` iff none exists. |
| Localization.CatalogFollowsCandidates | i18n.py:63-91 | The nested checks pick the first existing candidate from exact, then prefix (for a language with `_`), then `en.json`. |
| Localization.LoadedTranslations | i18n.py:52-94 | Empty when setup raises or no file exists. Otherwise, for whichever file is chosen (exact, prefix or English), it is that file's entries when the file is readable and empty when it is not. |
| Localization.RegionFallsBackToLanguage | i18n.py:63-79 | With no catalog of its own, `xx_YY` gets the entries of a readable `xx.json`. |
| Localization.EnglishIsLastResort | i18n.py:63-91 | With neither the exact nor the prefix catalog, the entries of a readable `en.json` are loaded. |
| Localization.UnreadableExactCatalogGivesNothing | i18n.py:67-94 | An unreadable exact catalog leaves no translations, with no fallback to other files. |
| Localization.NoCatalogEchoesKeys | i18n.py:60-94 | Without a catalog, no key has a translation. |
| Localization.I18n.constructor | i18n.py:9-26 | A non-empty `lang` is used verbatim, otherwise the language is detected. Translations are loaded for it. |
| Localization.I18n.LoadTranslations | i18n.py:52-94 | Sets the translations to the loaded map, leaves them as they were when no file exists, and keeps the language. |
| Localization.I18n.Get | i18n.py:96-119 | Returns the key when it has no translation. Otherwise it returns the formatted translation, or the raw one when formatting raises. |
| Localization.Registry.InitI18n | i18n.py:124-128 | Always installs and returns a fresh instance. |
| Localization.Registry.Translate | i18n.py:130-135 | Creates a detected-language instance only when there is none and otherwise reuses it. Returns its lookup of the key. |

## Left out

- Running yt-dlp and ffmpeg is not modelled. That covers `get_video_info`'s query, JSON parsing of its output, streaming of process output, the time-out and the exit paths. The planner takes the chosen formats as values, and the retry takes the run outcomes as values.
- Filesystem work is not modelled: copying, moving and removing files, `makedirs` of the output directory, the newest-file search, and `os.path` joins. The output template is a parameter of `DownloadArgs`.
- File names are not modelled. That includes `HEVC_<name>.mp4`, `converted_HEVC.mp4` and `<name>_HEVC_SW.mp4`.
- File-size and compression-ratio reports, `print_format_info`, `test_ffmpeg_capabilities` and `main` are console output and interactive prompts.
- An exception inside the success-path size report after a zero exit would also trigger the software retry. `Transcode.ConvertOutcome` treats any zero exit as success.
- The command text of `convert_to_hevc_fallback` and its duplicate definition are not modelled, only the guard that decides whether it runs.
- The frame rate is opaque: a value with a flag for truthiness and the text Python prints for it. Float formatting of `-r` is not modelled.
- Transcode.KnownVideoBitrateKept: `tbr` is an exact real, so float rounding of very large values is not modelled.
- Transcode.MaxRateKbps: `float(text) * 1.5` is computed exactly, so float rounding of very large values is not modelled.
- Transcode.OptionText: every profile option is a string, so the `isinstance` test is always true.
- Every chosen format is a non-empty dict with a `format_id`, so `if video_format` means "a format was chosen".
- Values of unexpected JSON types are not modelled, for example a string `height` or a list catalog.
- Strings.Lower: only the ASCII capitals and the Kelvin sign are folded. These are the only characters whose `lower()` gives an ASCII letter. Other letters keep their case, which does not change any comparison the model makes.
- Localization.I18n.Get: `str.format(**kwargs)` is a total function parameter that may fail (`None`). Catalog values are taken to be strings.
- `locale.getdefaultlocale()` is an input (`LocaleQuery`). The `langs/` directory is an input (`LangDir`): its readable and unreadable files, and whether creating it raises.
- The messages translated by `_` while detecting hardware and planning are console output.
- Shell quoting of the command when it is run is not modelled.

## Findings

| source | as written | input that shows it | evidently intended | confidence | as-written member | corrected member |
|---|---|---|---|---|---|---|
| youtube_downloader.py:337-339 | `'tbr' in video_format` is true for a key present with `null`, so `int(None)` raises and the whole conversion is abandoned. The audio branch at 360-362 does the same. | A video-only format with height 1080 and `"tbr": null`, paired with an audio format whose `tbr` is 160. | A null `tbr` is treated as missing, as `abr` and `fps` already are (363, 372). That gives the height tier: `8000k` video, `160k` audio. | medium; not executed | Transcode.NullTbrAbortsPlanning | Transcode.IntendedPlanTranscode |
| youtube_downloader.py:381-383 | The software profile has `"hwaccel": None` (line 208), and the f-string writes it as `-hwaccel None`. ffmpeg matches hwaccel names exactly against lower-case names such as `none`, so it rejects `None` and exits non-zero. The guard at 472 and 491 does not retry, because the encoder already is `libx265`. | A machine with no NVIDIA, AMD, Intel or VAAPI support, so the software profile is chosen. | The software profile asks for no hardware decoder: `-hwaccel none`, or no `-hwaccel` option. | low; depends on ffmpeg's option parsing; not executed | Transcode.SoftwareHwaccelNotAName | Transcode.IntendedHwaccelText |

=== FILE: common.dfy ===
/** Value types shared by every module of the model. */
module Common {

  /** Python's `None` or a value. */
  datatype Option<+T> = None | Some(value: T)

  /** A value, or the exception that replaced it. */
  datatype Result<+T, +E> = Ok(value: T) | Err(error: E)

  /** One key of a JSON object as a Python dict sees it: the key is missing,
      present with `null`, or present with a value. `d.get(k)` gives `None`
      for the first two; `k in d` is true for the last two. */
  datatype Field<+T> = Absent | Null | Present(value: T)
  {
    /** Python's `k in d`. */
    predicate HasKey() { !Absent? }
  }

  /** Python's `int(x)` on a float: truncation toward zero. */
  function Trunc(x: real): (n: int)
    ensures 0.0 <= x ==> n as real <= x < n as real + 1.0
    ensures x < 0.0 ==> n as real - 1.0 < x <= n as real
  {
    if 0.0 <= x then x.Floor else -((-x).Floor)
  }
}

=== FILE: download.dfy ===
/** The pure parts of `download_video` and `get_video_info` in
    youtube_downloader.py: the three `re.sub` calls that strip playlist
    parameters from a URL, the `-f` format selector, and the yt-dlp argument
    list. */
module Download {
  import opened Common
  import opened Strings
  import opened Formats

  /** Length of the leading run of characters other than `&` (what the
      greedy `[^&]*` consumes). */
  function RunLength(s: string): (n: nat)
    ensures n <= |s|
    ensures forall i :: 0 <= i < n ==> s[i] != '&'
    ensures n < |s| ==> s[n] == '&'
    decreases |s|
  {
    if |s| == 0 || s[0] == '&' then 0 else 1 + RunLength(s[1..])
  }

  /** What is left after the greedy `[^&]*`: empty, or starting with `&`. */
  function AfterRun(s: string): (r: string)
    ensures |r| <= |s| && (|r| == 0 || r[0] == '&')
  {
    s[RunLength(s)..]
  }

  /** `re.sub(r'&list=[^&]*', '', s)`: each `&list=` and the run of
      non-`&` characters after it is deleted, scanning left to right. */
  function StripAmpList(s: string): (r: string)
    ensures |r| <= |s|
    decreases |s|
  {
    if |s| == 0 then ""
    else if "&list=" <= s then
      StripAmpList(AfterRun(s[6..]))
    else [s[0]] + StripAmpList(s[1..])
  }

  /** `re.sub(r'\?list=[^&]*&', '?', s)`: a `?list=` whose run of
      non-`&` characters is followed by `&` is replaced, `&` included, by
      `?`; one with no `&` after it is not a match. */
  function ReplaceQueryList(s: string): (r: string)
    ensures |r| <= |s|
    decreases |s|
  {
    if |s| == 0 then ""
    else if "?list=" <= s && 0 < |AfterRun(s[6..])| then
      "?" + ReplaceQueryList(AfterRun(s[6..])[1..])
    else [s[0]] + ReplaceQueryList(s[1..])
  }

  /** `re.sub(r'\?list=[^&]*$', '', s)`: the first `?list=` with no `&`
      anywhere after it is cut off together with the rest of the text. */
  function DropTrailingQueryList(s: string): (r: string)
    ensures r <= s
    decreases |s|
  {
    if |s| == 0 then ""
    else if "?list=" <= s && '&' !in s[6..] then ""
    else [s[0]] + DropTrailingQueryList(s[1..])
  }

  /** The URL cleanup both functions apply, the three substitutions in order. */
  function StripPlaylist(url: string): (r: string)
    ensures |r| <= |url|
  {
    DropTrailingQueryList(ReplaceQueryList(StripAmpList(url)))
  }

  // Facts about `Contains` on the pieces of a text.

  lemma ContainsInPrefix(s: string, y: string, p: string)
    requires y <= s && Contains(y, p)
    ensures Contains(s, p)
  {
    assert s == "" + y + s[|y|..];
    ContainsInfix("", y, s[|y|..], p);
  }

  lemma ContainsInSuffix(s: string, k: nat, p: string)
    requires k <= |s| && Contains(s[k..], p)
    ensures Contains(s, p)
  {
    assert s == s[..k] + s[k..] + "";
    ContainsInfix(s[..k], s[k..], "", p);
  }

  // The `&list=` substitution.

  /** After a deletion the text goes on with `&` or ends. */
  lemma {:induction false} StripAmpListKeepsAmpStart(s: string)
    requires |s| == 0 || s[0] == '&'
    ensures var r := StripAmpList(s); |r| == 0 || r[0] == '&'
    decreases |s|
  {
    if 0 < |s| && "&list=" <= s {
      StripAmpListKeepsAmpStart(AfterRun(s[6..]));
    }
  }

  /** The substitution cannot create a prefix free of `&` that was not
      there before. */
  lemma {:induction false} StripAmpListNoNewPrefix(s: string, p: string)
    requires 0 < |p| && '&' !in p && !(p <= s)
    ensures !(p <= StripAmpList(s))
    decreases |s|
  {
    if |s| == 0 {
    } else if "&list=" <= s {
      StripAmpListKeepsAmpStart(AfterRun(s[6..]));
    } else if s[0] == p[0] {
      assert 1 < |p|;
      StripAmpListNoNewPrefix(s[1..], p[1..]);
    }
  }

  /** No `&list=` survives the first substitution. */
  lemma {:induction false} StripAmpListRemovesAll(s: string)
    ensures !Contains(StripAmpList(s), "&list=")
    decreases |s|
  {
    if |s| == 0 {
    } else if "&list=" <= s {
      StripAmpListRemovesAll(AfterRun(s[6..]));
    } else {
      StripAmpListRemovesAll(s[1..]);
      var x := StripAmpList(s[1..]);
      ContainsCons(s[0], x, "&list=");
      ConsPrefix(s[0], x, "&list=");
      assert s == [s[0]] + s[1..];
      ConsPrefix(s[0], s[1..], "&list=");
      if s[0] == '&' {
        StripAmpListNoNewPrefix(s[1..], "list=");
      }
    }
  }

  // The `?list=...&` substitution.

  lemma {:induction false} ReplaceQueryListNoAmp(s: string)
    requires '&' !in s
    ensures ReplaceQueryList(s) == s
    decreases |s|
  {
    if 0 < |s| {
      if "?list=" <= s {
        assert '&' !in s[6..];
        assert RunLength(s[6..]) == |s[6..]|;
      }
      assert '&' !in s[1..];
      ReplaceQueryListNoAmp(s[1..]);
      assert s == [s[0]] + s[1..];
    }
  }

  lemma {:induction false} ReplaceQueryListNoNewPrefix(s: string, p: string)
    requires 0 < |p| && '?' !in p && !(p <= s)
    ensures !(p <= ReplaceQueryList(s))
    decreases |s|
  {
    if |s| == 0 {
    } else if "?list=" <= s && 0 < |AfterRun(s[6..])| {
      ConsPrefix('?', ReplaceQueryList(AfterRun(s[6..])[1..]), p);
    } else {
      assert s == [s[0]] + s[1..];
      ConsPrefix(s[0], s[1..], p);
      ConsPrefix(s[0], ReplaceQueryList(s[1..]), p);
      if s[0] == p[0] {
        assert 1 < |p|;
        ReplaceQueryListNoNewPrefix(s[1..], p[1..]);
      }
    }
  }

  /** Where a `?list=...&` match ends: what follows its `&` is a suffix
      of the text, and the `&` before it is too. */
  lemma QueryListMatchRest(s: string)
    requires "?list=" <= s && 0 < |AfterRun(s[6..])|
    ensures var a := AfterRun(s[6..]);
      && a == s[|s| - |a|..] && a == ['&'] + a[1..]
  {
    var k := 6 + RunLength(s[6..]);
    assert AfterRun(s[6..]) == s[k..];
  }

  /** The second substitution creates no `&list=`. */
  lemma {:induction false} ReplaceQueryListKeepsAmpListOut(s: string)
    requires !Contains(s, "&list=")
    ensures !Contains(ReplaceQueryList(s), "&list=")
    decreases |s|
  {
    if |s| == 0 {
    } else if "?list=" <= s && 0 < |AfterRun(s[6..])| {
      var a := AfterRun(s[6..]);
      var v := a[1..];
      QueryListMatchRest(s);
      assert v == s[|s| - |v|..];
      if Contains(v, "&list=") {
        ContainsInSuffix(s, |s| - |v|, "&list=");
      }
      ReplaceQueryListKeepsAmpListOut(v);
      var x := ReplaceQueryList(v);
      assert ReplaceQueryList(s) == ['?'] + x;
      ContainsCons('?', x, "&list=");
      ConsPrefix('?', x, "&list=");
    } else {
      assert s == [s[0]] + s[1..];
      ContainsCons(s[0], s[1..], "&list=");
      ReplaceQueryListKeepsAmpListOut(s[1..]);
      var x := ReplaceQueryList(s[1..]);
      ContainsCons(s[0], x, "&list=");
      ConsPrefix(s[0], x, "&list=");
      ConsPrefix(s[0], s[1..], "&list=");
      if s[0] == '&' {
        ReplaceQueryListNoNewPrefix(s[1..], "list=");
      }
    }
  }

  /** Every `?list=` of a text ends the query: no `&` follows it. */
  predicate QueryListsLast(s: string)
    decreases |s|
  {
    |s| == 0 || (("?list=" <= s ==> '&' !in s[6..]) && QueryListsLast(s[1..]))
  }

  /** The step of `ReplaceQueryListLeavesLast` where a match is replaced by
      `?`: the rest after the match holds no `list=` right at its start. */
  lemma LeavesLastAfterMatch(s: string)
    requires !Contains(s, "&list=")
    requires "?list=" <= s && 0 < |AfterRun(s[6..])|
    requires QueryListsLast(ReplaceQueryList(AfterRun(s[6..])[1..]))
    ensures QueryListsLast(ReplaceQueryList(s))
  {
    var a := AfterRun(s[6..]);
    var v := a[1..];
    QueryListMatchRest(s);
    if Contains(a, "&list=") {
      ContainsInSuffix(s, |s| - |a|, "&list=");
    }
    ConsPrefix('&', v, "&list=");
    ReplaceQueryListNoNewPrefix(v, "list=");
    var x := ReplaceQueryList(v);
    assert ReplaceQueryList(s) == ['?'] + x;
    assert (['?'] + x)[1..] == x;
    ConsPrefix('?', x, "?list=");
  }

  /** A `?list=` that the second substitution does not match has no `&`
      anywhere after it. */
  lemma TrailingQueryListCopied(s: string)
    requires "?list=" <= s && |AfterRun(s[6..])| == 0
    ensures '&' !in s[6..] && ReplaceQueryList(s[1..]) == s[1..]
  {
    var t := s[6..];
    assert RunLength(t) == |t|;
    assert forall i :: 0 <= i < |t| ==> t[i] != '&';
    assert s[1..] == "list=" + t;
    ReplaceQueryListNoAmp(s[1..]);
  }

  /** `QueryListsLast` unfolded once on a text that starts with `c`. */
  lemma QueryListsLastCons(c: char, x: string)
    requires QueryListsLast(x)
    requires c == '?' && "list=" <= x ==> '&' !in x[5..]
    ensures QueryListsLast([c] + x)
  {
    var t := [c] + x;
    assert t[1..] == x;
    ConsPrefix(c, x, "?list=");
    if "?list=" <= t {
      assert t[6..] == x[5..];
    }
  }

  /** Where the second substitution does not match, it copies a character. */
  lemma ReplaceQueryListCopies(s: string)
    requires 0 < |s| && !("?list=" <= s && 0 < |AfterRun(s[6..])|)
    ensures ReplaceQueryList(s) == [s[0]] + ReplaceQueryList(s[1..])
  {
  }

  /** Where a character is copied, a `?list=` it starts has no `&` after it. */
  lemma CopiedQueryListIsLast(s: string)
    requires 0 < |s|
    requires !("?list=" <= s && 0 < |AfterRun(s[6..])|)
    ensures var x := ReplaceQueryList(s[1..]);
      s[0] == '?' && "list=" <= x ==> '&' !in x[5..]
  {
    var x := ReplaceQueryList(s[1..]);
    assert s == [s[0]] + s[1..];
    ConsPrefix(s[0], s[1..], "?list=");
    if s[0] == '?' && "list=" <= x {
      if "?list=" <= s {
        TrailingQueryListCopied(s);
        assert x[5..] == s[6..];
      } else {
        ReplaceQueryListNoNewPrefix(s[1..], "list=");
      }
    }
  }

  /** The step of `ReplaceQueryListLeavesLast` where a character is copied. */
  lemma LeavesLastAfterCopy(s: string)
    requires 0 < |s|
    requires !("?list=" <= s && 0 < |AfterRun(s[6..])|)
    requires QueryListsLast(ReplaceQueryList(s[1..]))
    ensures QueryListsLast(ReplaceQueryList(s))
  {
    ReplaceQueryListCopies(s);
    CopiedQueryListIsLast(s);
    QueryListsLastCons(s[0], ReplaceQueryList(s[1..]));
  }

  /** On a text without `&list=`, the second substitution leaves only
      `?list=` parameters that have no `&` after them. */
  lemma {:induction false} ReplaceQueryListLeavesLast(s: string)
    requires !Contains(s, "&list=")
    ensures QueryListsLast(ReplaceQueryList(s))
    decreases |s|
  {
    if |s| == 0 {
    } else if "?list=" <= s && 0 < |AfterRun(s[6..])| {
      var v := AfterRun(s[6..])[1..];
      QueryListMatchRest(s);
      assert v == s[|s| - |v|..];
      if Contains(v, "&list=") {
        ContainsInSuffix(s, |s| - |v|, "&list=");
      }
      ReplaceQueryListLeavesLast(v);
      LeavesLastAfterMatch(s);
    } else {
      assert s == [s[0]] + s[1..];
      ContainsCons(s[0], s[1..], "&list=");
      ReplaceQueryListLeavesLast(s[1..]);
      LeavesLastAfterCopy(s);
    }
  }

  // The trailing `?list=` substitution.

  /** On a text whose `?list=` parameters all come last, the third
      substitution leaves none. */
  lemma {:induction false} DropTrailingRemovesAll(s: string)
    requires QueryListsLast(s)
    ensures !Contains(DropTrailingQueryList(s), "?list=")
    decreases |s|
  {
    if |s| == 0 {
    } else if "?list=" <= s && '&' !in s[6..] {
    } else {
      DropTrailingRemovesAll(s[1..]);
      var y := DropTrailingQueryList(s[1..]);
      ContainsCons(s[0], y, "?list=");
      ConsPrefix(s[0], y, "?list=");
      assert s == [s[0]] + s[1..];
      ConsPrefix(s[0], s[1..], "?list=");
    }
  }

  /** After the cleanup the URL names no playlist: neither `&list=` nor
      `?list=` is left. */
  lemma StripPlaylistRemovesLists(url: string)
    ensures !Contains(StripPlaylist(url), "&list=")
    ensures !Contains(StripPlaylist(url), "?list=")
  {
    var r1 := StripAmpList(url);
    StripAmpListRemovesAll(url);
    var r2 := ReplaceQueryList(r1);
    ReplaceQueryListKeepsAmpListOut(r1);
    ReplaceQueryListLeavesLast(r1);
    DropTrailingRemovesAll(r2);
    if Contains(StripPlaylist(url), "&list=") {
      ContainsInPrefix(r2, StripPlaylist(url), "&list=");
    }
  }

  /** A URL without any `list=` parameter passes through unchanged. */
  lemma {:induction false} StripPlaylistKeepsPlainUrl(url: string)
    requires !Contains(url, "list=")
    ensures StripPlaylist(url) == url
    decreases |url|
  {
    StripAmpListKeepsPlain(url);
    ReplaceQueryListKeepsPlain(url);
    DropTrailingKeepsPlain(url);
  }

  lemma {:induction false} StripAmpListKeepsPlain(s: string)
    requires !Contains(s, "list=")
    ensures StripAmpList(s) == s
    decreases |s|
  {
    if 0 < |s| {
      assert s == [s[0]] + s[1..];
      ConsPrefix(s[0], s[1..], "&list=");
      StripAmpListKeepsPlain(s[1..]);
    }
  }

  lemma {:induction false} ReplaceQueryListKeepsPlain(s: string)
    requires !Contains(s, "list=")
    ensures ReplaceQueryList(s) == s
    decreases |s|
  {
    if 0 < |s| {
      assert s == [s[0]] + s[1..];
      ConsPrefix(s[0], s[1..], "?list=");
      ReplaceQueryListKeepsPlain(s[1..]);
    }
  }

  lemma {:induction false} DropTrailingKeepsPlain(s: string)
    requires !Contains(s, "list=")
    ensures DropTrailingQueryList(s) == s
    decreases |s|
  {
    if 0 < |s| {
      assert s == [s[0]] + s[1..];
      ConsPrefix(s[0], s[1..], "?list=");
      DropTrailingKeepsPlain(s[1..]);
    }
  }

  // What the cleanup keeps.

  /** `\?list=[^&]*$` matches at position `j` of `s`. */
  predicate TrailingMatchAt(s: string, j: nat)
  {
    j + 6 <= |s| && "?list=" <= s[j..] && '&' !in s[j + 6..]
  }

  lemma TrailingMatchShift(s: string, j: nat)
    requires 1 <= j <= |s|
    ensures TrailingMatchAt(s, j) <==> TrailingMatchAt(s[1..], j - 1)
  {
    assert s[1..][j - 1..] == s[j..];
  }

  /** The third substitution cuts the text exactly at its first match, and
      keeps everything before it. */
  lemma {:induction false} DropTrailingCutsAtFirstMatch(s: string)
    ensures var r := DropTrailingQueryList(s);
      && r == s[..|r|]
      && (|r| < |s| ==> TrailingMatchAt(s, |r|))
      && (forall j :: 0 <= j < |r| ==> !TrailingMatchAt(s, j))
    decreases |s|
  {
    if 0 < |s| {
      var r := DropTrailingQueryList(s);
      if "?list=" <= s && '&' !in s[6..] {
        assert s[0..] == s;
      } else {
        var r1 := DropTrailingQueryList(s[1..]);
        DropTrailingCutsAtFirstMatch(s[1..]);
        assert r == [s[0]] + r1;
        if |r| < |s| {
          TrailingMatchShift(s, |r|);
        }
        forall j | 0 <= j < |r|
          ensures !TrailingMatchAt(s, j)
        {
          if 0 < j {
            TrailingMatchShift(s, j);
          } else {
            assert s[0..] == s;
          }
        }
      }
    }
  }

  /** A text that does not start with `&` has its first character copied. */
  lemma StripAmpListCopiesFirst(s: string)
    requires 0 < |s| && s[0] != '&'
    ensures StripAmpList(s) == [s[0]] + StripAmpList(s[1..])
  {
  }

  /** A text that does not start with `?` has its first character copied
      by the second substitution. */
  lemma ReplaceQueryListCopiesFirst(s: string)
    requires 0 < |s| && s[0] != '?'
    ensures ReplaceQueryList(s) == [s[0]] + ReplaceQueryList(s[1..])
  {
    assert !("?list=" <= s);
    ReplaceQueryListCopies(s);
  }

  /** ... and by the third. */
  lemma DropTrailingCopiesFirst(s: string)
    requires 0 < |s| && s[0] != '?'
    ensures DropTrailingQueryList(s) == [s[0]] + DropTrailingQueryList(s[1..])
  {
  }

  /** How a non-empty head splits off its first character, on both sides
      of the head lemmas below. */
  lemma HeadSplit(p: string, rest: string, out: string)
    requires 0 < |p|
    ensures (p + rest)[0] == p[0] && (p + rest)[1..] == p[1..] + rest
    ensures p + out == [p[0]] + (p[1..] + out)
  {
  }

  /** A text free of `&` before the first `&` is copied as it is. */
  lemma {:induction false} StripAmpListKeepsHead(p: string, rest: string)
    requires '&' !in p
    ensures StripAmpList(p + rest) == p + StripAmpList(rest)
    decreases |p|
  {
    if 0 < |p| {
      HeadSplit(p, rest, StripAmpList(rest));
      StripAmpListCopiesFirst(p + rest);
      StripAmpListKeepsHead(p[1..], rest);
    } else {
      assert p + rest == rest;
    }
  }

  /** A text free of `?` before the first `?` is copied as it is. */
  lemma {:induction false} ReplaceQueryListKeepsHead(p: string, rest: string)
    requires '?' !in p
    ensures ReplaceQueryList(p + rest) == p + ReplaceQueryList(rest)
    decreases |p|
  {
    if 0 < |p| {
      HeadSplit(p, rest, ReplaceQueryList(rest));
      ReplaceQueryListCopiesFirst(p + rest);
      ReplaceQueryListKeepsHead(p[1..], rest);
    } else {
      assert p + rest == rest;
    }
  }

  lemma {:induction false} DropTrailingKeepsHead(p: string, rest: string)
    requires '?' !in p
    ensures DropTrailingQueryList(p + rest) == p + DropTrailingQueryList(rest)
    decreases |p|
  {
    if 0 < |p| {
      HeadSplit(p, rest, DropTrailingQueryList(rest));
      DropTrailingCopiesFirst(p + rest);
      DropTrailingKeepsHead(p[1..], rest);
    } else {
      assert p + rest == rest;
    }
  }

  /** A text without `&` passes the first substitution unchanged. */
  lemma StripAmpListKeepsAmpFree(s: string)
    requires '&' !in s
    ensures StripAmpList(s) == s
  {
    StripAmpListKeepsHead(s, "");
    assert s + "" == s;
  }

  /** A text without `?` passes the second and third substitutions
      unchanged. */
  lemma QuerySubstitutionsKeepQueryFree(s: string)
    requires '?' !in s
    ensures ReplaceQueryList(s) == s
    ensures DropTrailingQueryList(s) == s
  {
    ReplaceQueryListKeepsHead(s, "");
    DropTrailingKeepsHead(s, "");
    assert s + "" == s;
  }

  /** The cleanup keeps everything before the first `?` or `&` (scheme,
      host and path) and works on the rest alone. */
  lemma StripPlaylistKeepsHead(p: string, rest: string)
    requires '&' !in p && '?' !in p
    ensures StripPlaylist(p + rest) == p + StripPlaylist(rest)
  {
    StripAmpListKeepsHead(p, rest);
    ReplaceQueryListKeepsHead(p, StripAmpList(rest));
    DropTrailingKeepsHead(p, ReplaceQueryList(StripAmpList(rest)));
  }

  /** `s.split('&')`. */
  function AmpFields(s: string): (fs: seq<string>)
    ensures 0 < |fs| && fs[0] == BeforeFirst(s, '&')
    decreases |s|
  {
    if '&' !in s then [s]
    else
      var p := BeforeFirst(s, '&');
      [p] + AmpFields(s[|p| + 1..])
  }

  /** The fields after an `&`, each put back behind its `&`, except those
      that start with `list=`. */
  function KeptFields(fs: seq<string>): string
    decreases |fs|
  {
    if |fs| == 0 then "" else FieldKept(fs[0]) + KeptFields(fs[1..])
  }

  /** One field after an `&`: gone when it starts with `list=`, otherwise
      back behind its `&`. */
  function FieldKept(f: string): string
  {
    if "list=" <= f then "" else "&" + f
  }

  /** The run after `list=` ends where the field ends. */
  lemma RunLengthIsFirstAmp(s: string, k: nat)
    requires k <= |s| && (forall i :: 0 <= i < k ==> s[i] != '&') && (k < |s| ==> s[k] == '&')
    ensures RunLength(s) == k
  {
  }

  /** A field is the text up to the next `&`: a free-of-`&` text followed
      by nothing or by an `&`. */
  predicate IsField(f: string, rest: string)
  {
    '&' !in f && (|rest| == 0 || rest[0] == '&')
  }

  /** A field that does not start with `list=` does not start it together
      with what follows it either. */
  lemma FieldNotList(f: string, rest: string)
    requires IsField(f, rest) && !("list=" <= f)
    ensures !("list=" <= f + rest)
  {
    if |f| < 5 {
      if 0 < |rest| {
        assert (f + rest)[|f|] == '&';
      }
    } else {
      assert (f + rest)[..5] == f[..5];
    }
  }

  /** Behind an `&`, a text starting with `list=` loses the match and its
      run. */
  lemma AmpListStep(x: string)
    requires "list=" <= x
    ensures StripAmpList("&" + x) == StripAmpList(AfterRun(x[5..]))
  {
    var u := "&" + x;
    assert u[..6] == "&list=";
    assert u[6..] == x[5..];
  }

  /** Behind an `&`, any other text keeps the `&`. */
  lemma AmpPlainStep(x: string)
    requires !("list=" <= x)
    ensures StripAmpList("&" + x) == "&" + StripAmpList(x)
  {
    ConsPrefix('&', x, "&list=");
    assert ("&" + x)[1..] == x;
  }

  /** The run after the `list=` of a field ends with the field. */
  lemma ListFieldRun(f: string, rest: string)
    requires IsField(f, rest) && "list=" <= f
    ensures "list=" <= f + rest && AfterRun((f + rest)[5..]) == rest
  {
    var v := (f + rest)[5..];
    assert (f + rest)[..5] == f[..5];
    assert v == f[5..] + rest;
    assert forall i :: 0 <= i < |f| - 5 ==> v[i] == f[5 + i];
    RunLengthIsFirstAmp(v, |f| - 5);
    assert v[|f| - 5..] == rest;
  }

  /** An `&` field that starts with `list=` is deleted up to the next `&`. */
  lemma ListFieldDropped(f: string, rest: string)
    requires IsField(f, rest) && "list=" <= f
    ensures StripAmpList("&" + (f + rest)) == StripAmpList(rest)
  {
    ListFieldRun(f, rest);
    AmpListStep(f + rest);
  }

  lemma Associative(a: string, b: string, c: string)
    ensures a + b + c == a + (b + c)
  {
  }

  /** Any other `&` field is kept with its `&`. */
  lemma PlainFieldKept(f: string, rest: string)
    requires IsField(f, rest) && !("list=" <= f)
    ensures StripAmpList("&" + (f + rest)) == "&" + f + StripAmpList(rest)
  {
    FieldNotList(f, rest);
    AmpPlainStep(f + rest);
    StripAmpListKeepsHead(f, rest);
    Associative("&", f, StripAmpList(rest));
  }

  /** One `&` field: dropped when it starts with `list=`, kept otherwise. */
  lemma AmpFieldStep(f: string, rest: string)
    requires IsField(f, rest)
    ensures StripAmpList("&" + (f + rest)) == FieldKept(f) + StripAmpList(rest)
  {
    if "list=" <= f {
      ListFieldDropped(f, rest);
      assert FieldKept(f) + StripAmpList(rest) == StripAmpList(rest);
    } else {
      PlainFieldKept(f, rest);
      assert FieldKept(f) == "&" + f;
    }
  }

  /** The first field of a text and what follows it. */
  lemma FirstAmpField(t: string)
    ensures var q := BeforeFirst(t, '&'); IsField(q, t[|q|..]) && t == q + t[|q|..]
  {
    var q := BeforeFirst(t, '&');
    assert t[..|q|] == q;
  }

  /** The fields after the first one. */
  lemma LaterAmpFields(t: string)
    ensures var q := BeforeFirst(t, '&');
      ('&' in t ==> t[|q|..] == "&" + t[|q| + 1..] && AmpFields(t)[1..] == AmpFields(t[|q| + 1..])) &&
      ('&' !in t ==> t[|q|..] == "" && AmpFields(t)[1..] == [])
  {
  }

  /** The first field behind an `&`. */
  lemma AfterAmpFirst(t: string)
    ensures var q := BeforeFirst(t, '&'); StripAmpList("&" + t) == FieldKept(q) + StripAmpList(t[|q|..])
  {
    var q := BeforeFirst(t, '&');
    FirstAmpField(t);
    AmpFieldStep(q, t[|q|..]);
  }

  /** The text behind an `&`: its fields, with the `list=` ones dropped. */
  lemma {:induction false} StripAmpListAfterAmp(t: string)
    ensures StripAmpList("&" + t) == KeptFields(AmpFields(t))
    decreases |t|
  {
    var q := BeforeFirst(t, '&');
    AfterAmpFirst(t);
    LaterAmpFields(t);
    if '&' in t {
      StripAmpListAfterAmp(t[|q| + 1..]);
    }
  }

  /** Field by field, as `s.split('&')` gives them: the first field is
      kept, and every later one is kept behind its `&` unless it starts
      with `list=`. */
  lemma StripAmpListByFields(s: string)
    ensures StripAmpList(s) == AmpFields(s)[0] + KeptFields(AmpFields(s)[1..])
  {
    var p := BeforeFirst(s, '&');
    if '&' in s {
      var t := s[|p| + 1..];
      assert s == p + ("&" + t);
      StripAmpListKeepsHead(p, "&" + t);
      StripAmpListAfterAmp(t);
    } else {
      assert s == s + "";
      StripAmpListKeepsHead(s, "");
    }
  }

  lemma LastListShape(head: string, pl: string)
    ensures head + "&list=" + pl == head + ("&" + (("list=" + pl) + ""))
  {
  }

  /** A trailing `&list=` parameter goes, and what is before it stays. */
  lemma StripAmpListDropsLastList(head: string, pl: string)
    requires '&' !in head && '&' !in pl
    ensures StripAmpList(head + "&list=" + pl) == head
  {
    var f := "list=" + pl;
    LastListShape(head, pl);
    StripAmpListKeepsHead(head, "&" + (f + ""));
    ListFieldDropped(f, "");
    assert head + "" == head;
  }

  /** A playlist parameter after the first parameter (`v=<id>`, say) is
      dropped, and the first parameter kept. */
  lemma StripPlaylistKeepsParamBeforeList(base: string, f: string, pl: string)
    requires '&' !in base && '?' !in base && '&' !in f && '?' !in f && '&' !in pl
    requires !("list=" <= f)
    ensures StripPlaylist(base + "?" + f + "&list=" + pl) == base + "?" + f
  {
    var head := base + "?" + f;
    assert '&' !in head;
    StripAmpListDropsLastList(head, pl);
    QueryKept(base, f);
  }

  /** A playlist parameter before another parameter is dropped, and that
      parameter moves up to be the first. */
  lemma StripPlaylistKeepsParamAfterList(base: string, pl: string, f: string)
    requires '&' !in base && '?' !in base && '&' !in f && '?' !in f && '&' !in pl
    requires !("list=" <= f)
    ensures StripPlaylist(base + "?list=" + pl + "&" + f) == base + "?" + f
  {
    var head := base + "?list=" + pl;
    assert '&' !in head;
    StripAmpListKeepsField(head, f);
    ReplaceQueryListMovesFieldUp(base, pl, f);
    QueryKept(base, f);
  }

  /** A field that does not start with `list=` is kept behind its `&`. */
  lemma StripAmpListKeepsField(head: string, f: string)
    requires '&' !in head && '&' !in f && !("list=" <= f)
    ensures StripAmpList(head + "&" + f) == head + "&" + f
  {
    assert head + "&" + f == head + ("&" + (f + ""));
    StripAmpListKeepsHead(head, "&" + (f + ""));
    PlainFieldKept(f, "");
    assert "&" + f + "" == "&" + f;
    Associative(head, "&", f);
  }

  /** A query that does not start with `list=` is left alone by the two
      `?list=` substitutions. */
  lemma QueryKept(base: string, f: string)
    requires '?' !in base && '?' !in f && !("list=" <= f)
    ensures ReplaceQueryList(base + "?" + f) == base + "?" + f
    ensures DropTrailingQueryList(base + "?" + f) == base + "?" + f
  {
    var w := "?" + f;
    assert base + "?" + f == base + w;
    assert f + "" == f && w[1..] == f;
    ConsPrefix('?', f, "?list=");
    ReplaceQueryListKeepsHead(f, "");
    ReplaceQueryListCopies(w);
    ReplaceQueryListKeepsHead(base, w);
    DropTrailingKeepsHead(f, "");
    assert DropTrailingQueryList(w) == [w[0]] + DropTrailingQueryList(f);
    DropTrailingKeepsHead(base, w);
  }

  /** One `?list=...&` match: it becomes `?` and the text after the `&`
      is processed on. */
  lemma QueryListMatch(pl: string, f: string)
    requires '&' !in pl
    ensures ReplaceQueryList("?list=" + pl + "&" + f) == "?" + ReplaceQueryList(f)
  {
    var m := "?list=" + pl + "&" + f;
    assert m[..6] == "?list=" && m[6..] == pl + "&" + f;
    RunLengthIsFirstAmp(m[6..], |pl|);
    assert m[6..][|pl|..] == "&" + f;
    assert ("&" + f)[1..] == f;
  }

  lemma ReplaceQueryListMovesFieldUp(base: string, pl: string, f: string)
    requires '?' !in base && '&' !in pl && '?' !in f
    ensures ReplaceQueryList(base + "?list=" + pl + "&" + f) == base + "?" + f
  {
    var m := "?list=" + pl + "&" + f;
    assert base + "?list=" + pl + "&" + f == base + m;
    ReplaceQueryListKeepsHead(base, m);
    QueryListMatchPlain(pl, f);
    assert base + ("?" + f) == base + "?" + f;
  }

  lemma QueryListMatchPlain(pl: string, f: string)
    requires '&' !in pl && '?' !in f
    ensures ReplaceQueryList("?list=" + pl + "&" + f) == "?" + f
  {
    QueryListMatch(pl, f);
    ReplaceQueryListKeepsHead(f, "");
    assert f + "" == f;
  }








  /** The `-f` argument: `<video id>+<audio id>` when both formats were
      chosen, otherwise the id of the one that was; `None` where
      `download_video` refuses before building a command. */
  function FormatSelector(video: Option<Format>, audio: Option<Format>): (r: Option<string>)
    ensures r.None? <==> video.None? && audio.None?
    ensures video.Some? && audio.Some? ==> r == Some(video.value.formatId + "+" + audio.value.formatId)
    ensures video.Some? && audio.None? ==> r == Some(video.value.formatId)
    ensures video.None? && audio.Some? ==> r == Some(audio.value.formatId)
  {
    if video.Some? && audio.Some? then Some(video.value.formatId + "+" + audio.value.formatId)
    else if video.Some? then Some(video.value.formatId)
    else if audio.Some? then Some(audio.value.formatId)
    else None
  }

  /** A selector for two formats splits back at its `+` into the two ids,
      provided the video id itself holds no `+`. */
  lemma FormatSelectorSplits(video: Format, audio: Format)
    requires '+' !in video.formatId
    ensures var r := FormatSelector(Some(video), Some(audio)).value;
      && BeforeFirst(r, '+') == video.formatId
      && r[|video.formatId| + 1..] == audio.formatId
  {
    var r := FormatSelector(Some(video), Some(audio)).value;
    var v := video.formatId;
    assert r[|v|] == '+' && r[..|v|] == v;
    BeforeFirstAt(r, '+', |v|);
  }

  /** `s.split(c)[0]` is the text before a `c` at position `k` when no
      earlier `c` exists. */
  lemma {:induction false} BeforeFirstAt(s: string, c: char, k: nat)
    requires k < |s| && s[k] == c && c !in s[..k]
    ensures BeforeFirst(s, c) == s[..k]
    decreases k
  {
    if 0 < k {
      assert s[1..][..k - 1] == s[..k][1..];
      BeforeFirstAt(s[1..], c, k - 1);
    }
  }

  /** The yt-dlp argument list of `download_video`, before it is run. */
  function DownloadArgs(url: string, video: Option<Format>, audio: Option<Format>, template: string)
    : (r: Option<seq<string>>)
    ensures r.None? <==> video.None? && audio.None?
    ensures r.Some? ==>
      && |r.value| == 10 && r.value[0] == "yt-dlp"
      && r.value[1] == "-f" && Some(r.value[2]) == FormatSelector(video, audio)
      && "--no-playlist" in r.value
      && r.value[6] == template
      && r.value[9] == StripPlaylist(url)
  {
    match FormatSelector(video, audio)
    case None => None
    case Some(spec) =>
      Some(["yt-dlp", "-f", spec, "--no-playlist", "--progress", "-o", template,
            "--print", "after_move:filepath", StripPlaylist(url)])
  }

  /** The URL handed to yt-dlp never names a playlist. */
  lemma DownloadUrlHasNoPlaylist(url: string, video: Option<Format>, audio: Option<Format>, template: string)
    requires video.Some? || audio.Some?
    ensures var r := DownloadArgs(url, video, audio, template);
      && r.Some?
      && !Contains(r.value[9], "&list=") && !Contains(r.value[9], "?list=")
  {
    StripPlaylistRemovesLists(url);
  }
}

=== FILE: formats.dfy ===
/** Stream selection (`filter_formats` and `get_best_formats` in
    youtube_downloader.py): the formats reported by the metadata query are
    split into video-only and audio-only candidates, and the best of each is
    the head of a stable descending sort on a fixed key. */
module Formats {
  import opened Common

  /** A frame rate as the metadata reports it: its value, for Python's
      truthiness test, and the text `str()` gives for it. */
  datatype Fps = Fps(rate: real, shown: string)

  /** One entry of the `formats` list of the metadata document. Every key may
      be missing or `null`, except `format_id`, which the metadata always has. */
  datatype Format = Format(
    formatId: string,
    vcodec: Field<string>,
    acodec: Field<string>,
    height: Field<int>,
    tbr: Field<real>,
    abr: Field<real>,
    fps: Field<Fps>)

  /** `fmt.get(key) == 'none'`: the codec sentinel that marks a missing stream. */
  predicate IsNone(codec: Field<string>) { codec == Present("none") }

  datatype Kind = VideoOnly | AudioOnly | Neither

  /** The branch of the loop in `filter_formats` that a format takes. */
  function Classify(f: Format): (k: Kind)
    ensures k == VideoOnly <==> !IsNone(f.vcodec) && IsNone(f.acodec)
    ensures k == AudioOnly <==> !IsNone(f.acodec) && IsNone(f.vcodec)
  {
    if !IsNone(f.vcodec) && IsNone(f.acodec) then VideoOnly
    else if !IsNone(f.acodec) && IsNone(f.vcodec) then AudioOnly
    else Neither
  }

  /** The formats of kind `k`, in input order. */
  function OfKind(fs: seq<Format>, k: Kind): (r: seq<Format>)
    ensures |r| <= |fs|
    ensures forall f :: f in r <==> f in fs && Classify(f) == k
    decreases |fs|
  {
    if |fs| == 0 then []
    else
      var init, last := fs[..|fs| - 1], fs[|fs| - 1];
      assert fs == init + [last];
      OfKind(init, k) + (if Classify(last) == k then [last] else [])
  }

  /** `filter_formats`: one pass over the formats, appending each video-only
      format to the first list and each audio-only format to the second. */
  method FilterFormats(formats: seq<Format>) returns (videos: seq<Format>, audios: seq<Format>)
    ensures videos == OfKind(formats, VideoOnly)
    ensures audios == OfKind(formats, AudioOnly)
  {
    videos, audios := [], [];
    var i := 0;
    while i < |formats|
      invariant 0 <= i <= |formats|
      invariant videos == OfKind(formats[..i], VideoOnly)
      invariant audios == OfKind(formats[..i], AudioOnly)
    {
      var f := formats[i];
      assert formats[..i + 1] == formats[..i] + [f];
      if !IsNone(f.vcodec) && IsNone(f.acodec) {
        videos := videos + [f];
      } else if !IsNone(f.acodec) && IsNone(f.vcodec) {
        audios := audios + [f];
      }
      i := i + 1;
    }
    assert formats[..i] == formats;
  }

  /** `b` keeps the elements of `a` in order, possibly with others between. */
  predicate SubsequenceOf<T(==)>(a: seq<T>, b: seq<T>)
    decreases |b|
  {
    |a| == 0 ||
    (0 < |b| &&
      if a[|a| - 1] == b[|b| - 1] then SubsequenceOf(a[..|a| - 1], b[..|b| - 1])
      else SubsequenceOf(a, b[..|b| - 1]))
  }

  /** Filtering keeps the input order. */
  lemma {:induction false} OfKindKeepsOrder(fs: seq<Format>, k: Kind)
    ensures SubsequenceOf(OfKind(fs, k), fs)
    decreases |fs|
  {
    if |fs| > 0 {
      var init, last := fs[..|fs| - 1], fs[|fs| - 1];
      OfKindKeepsOrder(init, k);
      var r := OfKind(fs, k);
      if Classify(last) == k {
        assert r[..|r| - 1] == OfKind(init, k);
      } else {
        assert r == OfKind(init, k);
        if 0 < |r| {
          assert r[|r| - 1] in r;
          assert Classify(r[|r| - 1]) == k;
        }
      }
    }
  }

  /** The two lists `filter_formats` returns are disjoint, and a muxed or
      codec-less format lands in neither. */
  lemma FilterSeparates(fs: seq<Format>, f: Format)
    ensures !(f in OfKind(fs, VideoOnly) && f in OfKind(fs, AudioOnly))
    ensures Classify(f) == Neither ==> f !in OfKind(fs, VideoOnly) && f !in OfKind(fs, AudioOnly)
  {
  }

  /** The list a candidate is ranked in. */
  datatype Track = VideoTrack | AudioTrack

  /** A sort key compared lexicographically, as Python compares tuples. */
  datatype Rank = Rank(major: real, minor: real)

  predicate Below(a: Rank, b: Rank)
  {
    a.major < b.major || (a.major == b.major && a.minor < b.minor)
  }

  /** `x.get('height', 0) or 0`. */
  function HeightKey(f: Format): int
  {
    match f.height
    case Present(h) => h
    case _ => 0
  }

  /** `x.get('tbr', 0) or 0`. */
  function TbrKey(f: Format): real
  {
    match f.tbr
    case Present(t) => t
    case _ => 0.0
  }

  /** The sort key of `get_best_formats`: (height, tbr) for video, tbr for audio. */
  function RankOf(f: Format, t: Track): Rank
  {
    match t
    case VideoTrack => Rank(HeightKey(f) as real, TbrKey(f))
    case AudioTrack => Rank(TbrKey(f), 0.0)
  }

  /** Each key is not below the next one. */
  predicate Descending(s: seq<Format>, t: Track)
  {
    forall i :: 0 <= i < |s| - 1 ==> !Below(RankOf(s[i], t), RankOf(s[i + 1], t))
  }

  /** Insertion step of a stable sort with `reverse=True`: `x`, which precedes
      every element of `s` in the input, goes before the first element whose
      key it is not below. */
  function Insert(x: Format, s: seq<Format>, t: Track): (r: seq<Format>)
    ensures |r| == |s| + 1 && multiset(r) == multiset(s) + multiset{x}
    ensures r[0] == (if |s| == 0 || !Below(RankOf(x, t), RankOf(s[0], t)) then x else s[0])
    decreases |s|
  {
    if |s| == 0 || !Below(RankOf(x, t), RankOf(s[0], t)) then [x] + s
    else
      assert s == [s[0]] + s[1..];
      [s[0]] + Insert(x, s[1..], t)
  }

  /** Inserting into a descending sequence keeps it descending. */
  lemma {:induction false} InsertKeepsDescending(x: Format, s: seq<Format>, t: Track)
    requires Descending(s, t)
    ensures Descending(Insert(x, s, t), t)
    decreases |s|
  {
    if |s| == 0 || !Below(RankOf(x, t), RankOf(s[0], t)) {
      var r := [x] + s;
      assert forall i :: 0 < i < |r| ==> r[i] == s[i - 1];
    } else {
      var rest := Insert(x, s[1..], t);
      InsertKeepsDescending(x, s[1..], t);
      var r := [s[0]] + rest;
      assert forall i :: 0 < i < |r| ==> r[i] == rest[i - 1];
      if 1 < |s| {
        assert !Below(RankOf(s[0], t), RankOf(s[1], t));
      }
    }
  }

  /** In a descending sequence no key is below a later one. */
  lemma {:induction false} DescendingPairwise(s: seq<Format>, t: Track, i: int, j: int)
    requires Descending(s, t) && 0 <= i <= j < |s|
    ensures !Below(RankOf(s[i], t), RankOf(s[j], t))
    decreases j - i
  {
    if i < j {
      DescendingPairwise(s, t, i + 1, j);
    }
  }

  /** `sorted(fs, key=..., reverse=True)`: descending by key, and a
      permutation of the input. */
  function SortDesc(fs: seq<Format>, t: Track): (r: seq<Format>)
    ensures |r| == |fs| && multiset(r) == multiset(fs)
    ensures Descending(r, t)
    decreases |fs|
  {
    if |fs| == 0 then []
    else
      assert fs == [fs[0]] + fs[1..];
      InsertKeepsDescending(fs[0], SortDesc(fs[1..], t), t);
      Insert(fs[0], SortDesc(fs[1..], t), t)
  }

  /** Index `k` holds a maximal key and every earlier index a strictly smaller one. */
  predicate IsFirstBest(fs: seq<Format>, k: int, t: Track)
  {
    && 0 <= k < |fs|
    && (forall j :: 0 <= j < |fs| ==> !Below(RankOf(fs[k], t), RankOf(fs[j], t)))
    && (forall j :: 0 <= j < k ==> Below(RankOf(fs[j], t), RankOf(fs[k], t)))
  }

  /** The earliest position of a maximal key. */
  function FirstBestIndex(fs: seq<Format>, t: Track): (k: nat)
    requires 0 < |fs|
    ensures IsFirstBest(fs, k, t)
    decreases |fs|
  {
    if |fs| == 1 then 0
    else
      var tail := fs[1..];
      var k' := FirstBestIndex(tail, t);
      assert forall j :: 1 <= j < |fs| ==> fs[j] == tail[j - 1];
      if Below(RankOf(fs[0], t), RankOf(fs[k' + 1], t)) then k' + 1 else 0
  }

  /** At most one index is the first best one. */
  lemma FirstBestUnique(fs: seq<Format>, k1: int, k2: int, t: Track)
    requires IsFirstBest(fs, k1, t) && IsFirstBest(fs, k2, t)
    ensures k1 == k2
  {
    assert !Below(RankOf(fs[k1], t), RankOf(fs[k2], t));
    assert !Below(RankOf(fs[k2], t), RankOf(fs[k1], t));
  }

  /** The head of the stable descending sort is the earliest maximal element. */
  lemma {:induction false} SortHeadIsFirstBest(fs: seq<Format>, t: Track)
    requires 0 < |fs|
    ensures SortDesc(fs, t)[0] == fs[FirstBestIndex(fs, t)]
    decreases |fs|
  {
    if 1 < |fs| {
      var tail := fs[1..];
      SortHeadIsFirstBest(tail, t);
      assert fs[FirstBestIndex(tail, t) + 1] == tail[FirstBestIndex(tail, t)];
    }
  }

  /** `sorted_xs[0] if sorted_xs else None`. */
  function BestOf(fs: seq<Format>, t: Track): (r: Option<Format>)
    ensures r == None <==> |fs| == 0
    ensures r.Some? ==> r.value == fs[FirstBestIndex(fs, t)]
  {
    if |fs| == 0 then None
    else
      SortHeadIsFirstBest(fs, t);
      Some(SortDesc(fs, t)[0])
  }

  datatype Selection = Selection(video: Option<Format>, audio: Option<Format>)

  /** `get_best_formats(video_formats, audio_formats)`. */
  function BestFormats(videos: seq<Format>, audios: seq<Format>): (s: Selection)
    ensures s.video == None <==> |videos| == 0
    ensures s.audio == None <==> |audios| == 0
    ensures s.video.Some? ==> exists k :: IsFirstBest(videos, k, VideoTrack) && s.video.value == videos[k]
    ensures s.audio.Some? ==> exists k :: IsFirstBest(audios, k, AudioTrack) && s.audio.value == audios[k]
  {
    Selection(BestOf(videos, VideoTrack), BestOf(audios, AudioTrack))
  }

  /** The selection step of the program's main flow: filter, then pick the best. */
  method SelectFormats(formats: seq<Format>) returns (s: Selection)
    ensures s == BestFormats(OfKind(formats, VideoOnly), OfKind(formats, AudioOnly))
  {
    var videos, audios := FilterFormats(formats);
    s := BestFormats(videos, audios);
  }

  /** The best of one kind is a format of that kind from the list, and no
      format of that kind ranks above it. */
  lemma BestOfKind(formats: seq<Format>, k: Kind, t: Track)
    ensures var r := BestOf(OfKind(formats, k), t);
      && (r == None <==> forall f :: f in formats ==> Classify(f) != k)
      && (r.Some? ==>
            && r.value in formats && Classify(r.value) == k
            && forall f :: f in formats && Classify(f) == k ==> !Below(RankOf(r.value, t), RankOf(f, t)))
  {
    var fs := OfKind(formats, k);
    if 0 < |fs| {
      var i := FirstBestIndex(fs, t);
      assert fs[i] in fs;
      forall f | f in formats && Classify(f) == k
        ensures !Below(RankOf(fs[i], t), RankOf(f, t))
      {
        var j :| 0 <= j < |fs| && fs[j] == f;
      }
    } else {
      forall f | f in formats ensures Classify(f) != k {
        assert f !in fs;
      }
    }
  }

  /** What the selection promises about the whole format list: the chosen
      video is video-only and its (height, tbr) key is not below that of any
      video-only format; the chosen audio likewise on tbr; each is absent
      exactly when no candidate of its kind exists. */
  lemma SelectionIsBest(formats: seq<Format>)
    ensures var s := BestFormats(OfKind(formats, VideoOnly), OfKind(formats, AudioOnly));
      && (s.video == None <==> forall f :: f in formats ==> Classify(f) != VideoOnly)
      && (s.audio == None <==> forall f :: f in formats ==> Classify(f) != AudioOnly)
      && (s.video.Some? ==>
            && s.video.value in formats && Classify(s.video.value) == VideoOnly
            && forall f :: f in formats && Classify(f) == VideoOnly ==>
                 !Below(RankOf(s.video.value, VideoTrack), RankOf(f, VideoTrack)))
      && (s.audio.Some? ==>
            && s.audio.value in formats && Classify(s.audio.value) == AudioOnly
            && forall f :: f in formats && Classify(f) == AudioOnly ==>
                 !Below(RankOf(s.audio.value, AudioTrack), RankOf(f, AudioTrack)))
  {
    BestOfKind(formats, VideoOnly, VideoTrack);
    BestOfKind(formats, AudioOnly, AudioTrack);
  }

}

=== FILE: hardware.dfy ===
/** Hardware-acceleration detection (`detect_hardware_acceleration` in
    youtube_downloader.py) as a pure function of the platform name and the
    outcomes of the read-only probes it runs. */
module Hardware {
  import opened Common
  import opened Strings

  /** What `subprocess.run([tool], capture_output=True, text=True)` did: the
      tool was not found (`FileNotFoundError`), the launch raised some other
      exception, or the tool exited with a code and printed a text. */
  datatype ToolRun = NotInstalled | LaunchFailed | Exited(code: int, stdout: string)

  /** The probes: `nvidia-smi`, the PowerShell GPU query, and `vainfo`. */
  datatype Probes = Probes(nvidiaSmi: ToolRun, powershell: ToolRun, vainfo: ToolRun)

  /** The six encoder back ends the function can choose. */
  datatype Backend = VideoToolbox | Nvenc | Amf | Qsv | Vaapi | Software

  /** The dictionary the function returns: encoder, hwaccel and options. */
  datatype HwProfile = HwProfile(encoder: string, hwaccel: Option<string>, options: seq<string>)

  /** The fixed dictionary of each back end. */
  function Profile(b: Backend): (p: HwProfile)
    ensures p.hwaccel == None <==> b == Software
    ensures |p.options| == 2
  {
    match b
    case VideoToolbox => HwProfile("hevc_videotoolbox", Some("videotoolbox"), ["-allow_sw", "1"])
    case Nvenc => HwProfile("hevc_nvenc", Some("cuda"), ["-rc", "vbr_hq"])
    case Amf => HwProfile("hevc_amf", Some("amf"), ["-quality", "quality"])
    case Qsv => HwProfile("hevc_qsv", Some("qsv"), ["-load_plugin", "hevc_hw"])
    case Vaapi => HwProfile("hevc_vaapi", Some("vaapi"), ["-vaapi_device", "/dev/dri/renderD128"])
    case Software => HwProfile("libx265", None, ["-preset", "medium"])
  }

  /** Different back ends name different encoders, so a profile's encoder
      name identifies its back end. */
  lemma EncoderNamesDistinct(b1: Backend, b2: Backend)
    requires b1 != b2
    ensures Profile(b1).encoder != Profile(b2).encoder
  {
    var e1, e2 := Profile(b1).encoder, Profile(b2).encoder;
    assert e1[|e1| - 1] != e2[|e2| - 1] || e1[5] != e2[5] || |e1| != |e2|;
  }

  /** The exception that escapes the function: only `FileNotFoundError` is
      caught around `nvidia-smi` and `vainfo`. */
  datatype DetectError = ProbeRaised(tool: string)

  predicate NvidiaReady(probes: Probes)
  {
    probes.nvidiaSmi.Exited? && probes.nvidiaSmi.code == 0
  }

  /** `"<vendor>" in gpu_info.stdout`; when the PowerShell launch raised,
      `gpu_info` is unbound and the check's `NameError` is swallowed. */
  predicate GpuTextHas(probes: Probes, vendor: string)
  {
    probes.powershell.Exited? && Contains(probes.powershell.stdout, vendor)
  }

  predicate VaapiHevc(probes: Probes)
  {
    probes.vainfo.Exited? && probes.vainfo.code == 0 && Contains(probes.vainfo.stdout, "HEVC")
  }

  /** `detect_hardware_acceleration()` for `platform.system() == system`. */
  function DetectHardwareAcceleration(system: string, probes: Probes): (r: Result<Backend, DetectError>)
    ensures system == "Darwin" ==> r == Ok(VideoToolbox)
    ensures system != "Darwin" && system != "Windows" && system != "Linux" ==> r == Ok(Software)
    ensures r.Err? <==>
      (system == "Windows" || system == "Linux") &&
      (probes.nvidiaSmi == LaunchFailed ||
       (system == "Linux" && !NvidiaReady(probes) && probes.vainfo == LaunchFailed))
    ensures r == Ok(Software) <==>
      (system != "Darwin" && r.Ok? &&
       !(system in {"Windows", "Linux"} && NvidiaReady(probes)) &&
       !(system == "Windows" && (GpuTextHas(probes, "AMD") || GpuTextHas(probes, "Intel"))) &&
       !(system == "Linux" && VaapiHevc(probes)))
  {
    if system == "Darwin" then Ok(VideoToolbox)
    else if system == "Windows" then
      if probes.nvidiaSmi == LaunchFailed then Err(ProbeRaised("nvidia-smi"))
      else if NvidiaReady(probes) then Ok(Nvenc)
      else if GpuTextHas(probes, "AMD") then Ok(Amf)
      else if GpuTextHas(probes, "Intel") then Ok(Qsv)
      else Ok(Software)
    else if system == "Linux" then
      if probes.nvidiaSmi == LaunchFailed then Err(ProbeRaised("nvidia-smi"))
      else if NvidiaReady(probes) then Ok(Nvenc)
      else if probes.vainfo == LaunchFailed then Err(ProbeRaised("vainfo"))
      else if VaapiHevc(probes) then Ok(Vaapi)
      else Ok(Software)
    else Ok(Software)
  }

  // An independent reading of the same policy: an ordered table of
  // (condition, back end) rules per platform, tried top to bottom, with the
  // software encoder when no rule matches.

  datatype Condition = NvidiaOk | GpuText(vendor: string) | VaapiOk | Always

  datatype Rule = Rule(when: Condition, backend: Backend)

  datatype Verdict = Holds | Fails | Raises(tool: string)

  /** Evaluating one condition against the probe outcomes. */
  function Check(c: Condition, probes: Probes): Verdict
  {
    match c
    case NvidiaOk =>
      if probes.nvidiaSmi == LaunchFailed then Raises("nvidia-smi")
      else if NvidiaReady(probes) then Holds else Fails
    case GpuText(vendor) => if GpuTextHas(probes, vendor) then Holds else Fails
    case VaapiOk =>
      if probes.vainfo == LaunchFailed then Raises("vainfo")
      else if VaapiHevc(probes) then Holds else Fails
    case Always => Holds
  }

  function Table(system: string): seq<Rule>
  {
    if system == "Darwin" then [Rule(Always, VideoToolbox)]
    else if system == "Windows" then
      [Rule(NvidiaOk, Nvenc), Rule(GpuText("AMD"), Amf), Rule(GpuText("Intel"), Qsv)]
    else if system == "Linux" then [Rule(NvidiaOk, Nvenc), Rule(VaapiOk, Vaapi)]
    else []
  }

  function FirstMatch(rules: seq<Rule>, probes: Probes): Result<Backend, DetectError>
    decreases |rules|
  {
    if |rules| == 0 then Ok(Software)
    else
      match Check(rules[0].when, probes)
      case Holds => Ok(rules[0].backend)
      case Raises(tool) => Err(ProbeRaised(tool))
      case Fails => FirstMatch(rules[1..], probes)
  }

  /** The nested conditionals of the source decide exactly as the ordered
      rule table does. */
  lemma DetectFollowsTable(system: string, probes: Probes)
    ensures DetectHardwareAcceleration(system, probes) == FirstMatch(Table(system), probes)
  {
    var rules := Table(system);
    if system == "Windows" {
      var r2 := rules[2..];
      assert r2[1..] == [];
      assert FirstMatch(r2, probes) == if GpuTextHas(probes, "Intel") then Ok(Qsv) else Ok(Software);
      assert rules[1..][1..] == r2;
    } else if system == "Linux" {
      var r1 := rules[1..];
      assert r1[1..] == [];
      assert FirstMatch(r1, probes) ==
        if probes.vainfo == LaunchFailed then Err(ProbeRaised("vainfo"))
        else if VaapiHevc(probes) then Ok(Vaapi) else Ok(Software);
    }
  }

  /** Detection always produces a profile unless a probe that the platform
      consults raised something other than "not found". */
  lemma DetectionTotal(system: string, probes: Probes)
    requires probes.nvidiaSmi != LaunchFailed && probes.vainfo != LaunchFailed
    ensures DetectHardwareAcceleration(system, probes).Ok?
  {
  }
}

=== FILE: localization.dfy ===
/** The translation support of i18n.py: the language chosen from the
    system locale, the catalog file chosen among the files that exist, the
    `I18n` object that holds the loaded catalog, and the global instance
    behind `_`. The locale query and the `langs/` directory are inputs. */
module Localization {
  import opened Common
  import opened Strings

  /** What `locale.getdefaultlocale()` gave: it raised, or it returned a
      locale name or `None`. */
  datatype LocaleQuery = LocaleRaised | LocaleResult(locale: Option<string>)

  /** `I18n._detect_system_language()`. */
  function DetectSystemLanguage(q: LocaleQuery): (lang: string)
    ensures (q.LocaleRaised? || q.locale.None? || q.locale.value == "") ==> lang == "en"
    ensures q.LocaleResult? && q.locale.Some? ==>
      var s := q.locale.value;
      && ((LowerEquals(s, "zh_tw") || LowerEquals(s, "zh_hk")) ==> lang == "zh_TW")
      && (LowerEquals(s, "zh_cn") ==> lang == "zh_CN")
      && (s != "" && !LowerEquals(s, "zh_tw") && !LowerEquals(s, "zh_hk") && !LowerEquals(s, "zh_cn") ==>
            lang <= s && '_' !in lang && ('_' in s ==> s[|lang|] == '_') && ('_' !in s ==> lang == s))
  {
    match q
    case LocaleRaised => "en"
    case LocaleResult(None) => "en"
    case LocaleResult(Some(s)) =>
      if s == "" then "en"
      else if LowerEquals(s, "zh_tw") || LowerEquals(s, "zh_hk") then
        assert Lower(s[3]) in {'t', 'h'};
        "zh_TW"
      else if LowerEquals(s, "zh_cn") then "zh_CN"
      else BeforeFirst(s, '_')
  }

  /** A detected language names a region only for Chinese: any other
      result is a bare language code. */
  lemma DetectedRegionOnlyForChinese(q: LocaleQuery)
    ensures var lang := DetectSystemLanguage(q);
      '_' in lang ==> lang == "zh_TW" || lang == "zh_CN"
  {
  }

  /** Locales that differ only in ASCII letter case give the same language
      when they name one of the Chinese variants. */
  lemma ChineseVariantsIgnoreCase(s: string, t: string)
    requires |s| == |t| && forall i :: 0 <= i < |s| ==> Lower(s[i]) == Lower(t[i])
    requires LowerEquals(s, "zh_tw") || LowerEquals(s, "zh_hk") || LowerEquals(s, "zh_cn")
    ensures DetectSystemLanguage(LocaleResult(Some(s))) == DetectSystemLanguage(LocaleResult(Some(t)))
  {
    assert forall u :: LowerEquals(s, u) <==> LowerEquals(t, u);
  }

  /** `lower()` maps the Kelvin sign to `k`, so a Hong Kong locale written
      with it still selects traditional Chinese. */
  lemma KelvinSignHongKong()
    ensures DetectSystemLanguage(LocaleResult(Some("zh_h\U{212A}"))) == "zh_TW"
  {
    assert LowerEquals("zh_h\U{212A}", "zh_hk");
  }

  /** `f"{lang}.json"`. */
  function CatalogName(lang: string): string
  {
    lang + ".json"
  }

  /** The file `_load_translations` reads among the `existing` ones: the
      exact language, then (for a language with a region) its prefix, then
      English; `None` when none of them exists. */
  function CatalogFileFor(lang: string, existing: set<string>): (f: Option<string>)
    ensures f.Some? ==> f.value in existing
    ensures CatalogName(lang) in existing ==> f == Some(CatalogName(lang))
    ensures f.None? ==> CatalogName(lang) !in existing && "en.json" !in existing
  {
    if CatalogName(lang) in existing then Some(CatalogName(lang))
    else if '_' in lang then
      if CatalogName(BeforeFirst(lang, '_')) in existing then Some(CatalogName(BeforeFirst(lang, '_')))
      else if "en.json" in existing then Some("en.json")
      else None
    else if "en.json" in existing then Some("en.json")
    else None
  }

  /** The fallback chain written as a list of candidates. */
  function Candidates(lang: string): (c: seq<string>)
    ensures 2 <= |c| <= 3 && c[0] == CatalogName(lang) && c[|c| - 1] == "en.json"
  {
    if '_' in lang then [CatalogName(lang), CatalogName(BeforeFirst(lang, '_')), "en.json"]
    else [CatalogName(lang), "en.json"]
  }

  /** The first of `candidates` that exists. */
  function FirstExisting(candidates: seq<string>, existing: set<string>): (f: Option<string>)
    ensures f.None? <==> forall i :: 0 <= i < |candidates| ==> candidates[i] !in existing
    ensures f.Some? ==> f.value in existing && exists k :: (
      && 0 <= k < |candidates| && candidates[k] == f.value
      && forall i :: 0 <= i < k ==> candidates[i] !in existing)
  {
    if |candidates| == 0 then None
    else if candidates[0] in existing then Some(candidates[0])
    else
      var r := FirstExisting(candidates[1..], existing);
      assert forall i :: 1 <= i < |candidates| ==> candidates[i] == candidates[1..][i - 1];
      if r.Some? then
        var k :| 0 <= k < |candidates[1..]| && candidates[1..][k] == r.value && r.value in existing &&
          forall i :: 0 <= i < k ==> candidates[1..][i] !in existing;
        assert candidates[k + 1] == r.value;
        r
      else r
  }

  /** The nested existence checks pick the first existing candidate, so
      the catalog is `None` exactly when no candidate exists. */
  lemma CatalogFollowsCandidates(lang: string, existing: set<string>)
    ensures CatalogFileFor(lang, existing) == FirstExisting(Candidates(lang), existing)
  {
    var c := Candidates(lang);
    if CatalogName(lang) !in existing && '_' in lang {
      assert c[1..][1..] == ["en.json"];
    }
  }

  /** A catalog file: a JSON object of translations, or a file `json.load`
      or `open` raises on. */
  datatype CatalogFile = Catalog(entries: map<string, string>) | Unreadable

  /** The `langs/` directory: the catalog files in it, and whether setting it
      up (`os.makedirs` of a missing directory) raises. */
  datatype LangDir = LangDir(files: map<string, CatalogFile>, setupRaises: bool)

  /** The translations `_load_translations` leaves for `lang`: the chosen
      catalog's entries, or nothing when there is no catalog or an
      exception was caught. */
  function LoadedTranslations(lang: string, dir: LangDir): (t: map<string, string>)
    ensures dir.setupRaises ==> t == map[]
    ensures CatalogFileFor(lang, dir.files.Keys).None? ==> t == map[]
    ensures !dir.setupRaises && CatalogName(lang) in dir.files && dir.files[CatalogName(lang)].Catalog? ==>
      t == dir.files[CatalogName(lang)].entries
    ensures !dir.setupRaises && CatalogFileFor(lang, dir.files.Keys).Some? ==>
      var f := CatalogFileFor(lang, dir.files.Keys).value;
      t == if dir.files[f].Catalog? then dir.files[f].entries else map[]
    ensures t != map[] ==> exists f :: f in dir.files && dir.files[f] == Catalog(t)
  {
    if dir.setupRaises then map[]
    else
      match CatalogFileFor(lang, dir.files.Keys)
      case None => map[]
      case Some(f) =>
        match dir.files[f]
        case Catalog(entries) => entries
        case Unreadable => map[]
  }

  /** A language with a region and no catalog of its own gets the
      catalog of the language before the `_`. */
  lemma RegionFallsBackToLanguage(lang: string, dir: LangDir)
    requires !dir.setupRaises && '_' in lang && CatalogName(lang) !in dir.files
    requires CatalogName(BeforeFirst(lang, '_')) in dir.files
    requires dir.files[CatalogName(BeforeFirst(lang, '_'))].Catalog?
    ensures LoadedTranslations(lang, dir) == dir.files[CatalogName(BeforeFirst(lang, '_'))].entries
  {
  }

  /** English is the last resort, for a language with or without a region. */
  lemma EnglishIsLastResort(lang: string, dir: LangDir)
    requires !dir.setupRaises && CatalogName(lang) !in dir.files
    requires '_' in lang ==> CatalogName(BeforeFirst(lang, '_')) !in dir.files
    requires "en.json" in dir.files && dir.files["en.json"].Catalog?
    ensures LoadedTranslations(lang, dir) == dir.files["en.json"].entries
  {
  }

  /** An exact catalog that cannot be read is not skipped: the exception
      ends loading with no translations, even when English exists. */
  lemma UnreadableExactCatalogGivesNothing(lang: string, dir: LangDir)
    requires CatalogName(lang) in dir.files && dir.files[CatalogName(lang)] == Unreadable
    ensures LoadedTranslations(lang, dir) == map[]
  {
  }

  /** The translation support object. */
  class I18n {
    var translations: map<string, string>
    var currentLang: string

    /** `I18n(lang)`: a non-empty `lang` is used as given; otherwise the
        language is detected. The catalog is loaded right away. */
    constructor(lang: Option<string>, system: LocaleQuery, dir: LangDir)
      ensures currentLang == if lang.Some? && lang.value != "" then lang.value else DetectSystemLanguage(system)
      ensures translations == LoadedTranslations(currentLang, dir)
    {
      translations := map[];
      if lang.Some? && lang.value != "" {
        currentLang := lang.value;
      } else {
        currentLang := DetectSystemLanguage(system);
      }
      new;
      LoadTranslations(dir);
    }

    /** `_load_translations()`: the catalog for the current language, or
        nothing when an exception is caught; when no candidate file exists
        the translations are left as they were. */
    method LoadTranslations(dir: LangDir)
      modifies this
      ensures currentLang == old(currentLang)
      ensures translations ==
        if !dir.setupRaises && CatalogFileFor(currentLang, dir.files.Keys).None? then old(translations)
        else LoadedTranslations(currentLang, dir)
    {
      if dir.setupRaises {
        translations := map[];
        return;
      }
      var existing := dir.files.Keys;
      var chosen: Option<string> := None;
      if CatalogName(currentLang) in existing {
        chosen := Some(CatalogName(currentLang));
      } else if '_' in currentLang {
        var fallback := BeforeFirst(currentLang, '_');
        if CatalogName(fallback) in existing {
          chosen := Some(CatalogName(fallback));
        } else if "en.json" in existing {
          chosen := Some("en.json");
        }
      } else if "en.json" in existing {
        chosen := Some("en.json");
      }
      if chosen.Some? {
        match dir.files[chosen.value]
        case Catalog(entries) =>
          translations := entries;
        case Unreadable =>
          translations := map[];
      }
    }

    /** `get(key, **kwargs)`: the translation formatted by `format`, the raw
        translation when formatting raises (`format` gives `None`), or the
        key itself when there is no translation. */
    function Get(key: string, format: string -> Option<string>): (r: string)
      reads this
      ensures key !in translations ==> r == key
      ensures key in translations ==>
        (r == translations[key] && format(translations[key]).None?) ||
        (format(translations[key]) == Some(r))
    {
      if key in translations then
        match format(translations[key])
        case Some(text) => text
        case None => translations[key]
      else key
    }
  }

  /** With no catalog, every lookup gives back its key. */
  lemma NoCatalogEchoesKeys(lang: string, dir: LangDir, key: string)
    requires dir.setupRaises || CatalogFileFor(lang, dir.files.Keys).None?
    ensures key !in LoadedTranslations(lang, dir)
  {
  }

  /** The module-level `_i18n` variable of i18n.py. */
  class Registry {
    var current: I18n?

    constructor()
      ensures current == null
    {
      current := null;
    }

    /** `init_i18n(lang)`: always a new instance, which replaces the old one. */
    method InitI18n(lang: Option<string>, system: LocaleQuery, dir: LangDir) returns (i: I18n)
      modifies this
      ensures fresh(i) && current == i
      ensures i.currentLang == if lang.Some? && lang.value != "" then lang.value else DetectSystemLanguage(system)
      ensures i.translations == LoadedTranslations(i.currentLang, dir)
    {
      i := new I18n(lang, system, dir);
      current := i;
    }

    /** `_(key, **kwargs)`: creates an instance with a detected language only
        when there is none yet, and otherwise uses the one there is. */
    method Translate(key: string, format: string -> Option<string>, system: LocaleQuery, dir: LangDir)
      returns (r: string)
      modifies this
      ensures current != null
      ensures old(current) != null ==> current == old(current)
      ensures old(current) == null ==>
        && fresh(current)
        && current.currentLang == DetectSystemLanguage(system)
        && current.translations == LoadedTranslations(current.currentLang, dir)
      ensures r == current.Get(key, format)
    {
      if current == null {
        current := new I18n(None, system, dir);
      }
      r := current.Get(key, format);
    }
  }
}

=== FILE: strings.dfy ===
/** The string operations of Python that the model relies on: substring
    membership, `str.split(c)[0]`, `str.replace(c, "")`, `lower()` on the
    ASCII capitals and the Kelvin sign, and the decimal rendering of
    `f"{n}"` together with its parser. */
module Strings {
  import opened Common

  /** Python's `p in s` on strings. */
  predicate Contains(s: string, p: string)
    decreases |s|
  {
    p <= s || (0 < |s| && Contains(s[1..], p))
  }

  /** `Contains` agrees with "p starts at some position of s". */
  lemma {:induction false} ContainsIffOccurs(s: string, p: string)
    ensures Contains(s, p) <==> exists i :: 0 <= i <= |s| && p <= s[i..]
    decreases |s|
  {
    if p <= s {
      assert s[0..] == s;
    } else if 0 < |s| {
      ContainsIffOccurs(s[1..], p);
      if Contains(s[1..], p) {
        var i :| 0 <= i <= |s[1..]| && p <= s[1..][i..];
        assert s[1..][i..] == s[i + 1..];
      }
      if exists i :: 0 <= i <= |s| && p <= s[i..] {
        var i :| 0 <= i <= |s| && p <= s[i..];
        assert i != 0;
        assert s[1..][i - 1..] == s[i..];
      }
    } else {
      assert forall i :: 0 <= i <= |s| ==> s[i..] == s;
    }
  }

  /** A text that contains `p` keeps containing it whatever is put around it. */
  lemma ContainsInfix(a: string, b: string, c: string, p: string)
    requires Contains(b, p)
    ensures Contains(a + b + c, p)
  {
    ContainsIffOccurs(b, p);
    var i :| 0 <= i <= |b| && p <= b[i..];
    var s := a + b + c;
    assert s[|a| + i..] == b[i..] + c;
    ContainsIffOccurs(s, p);
  }

  /** Containment is transitive. */
  lemma ContainsTransitive(s: string, m: string, p: string)
    requires Contains(s, m) && Contains(m, p)
    ensures Contains(s, p)
  {
    ContainsIffOccurs(s, m);
    var i :| 0 <= i <= |s| && m <= s[i..];
    ContainsIffOccurs(m, p);
    var j :| 0 <= j <= |m| && p <= m[j..];
    assert s[i..][..|m|] == m;
    ContainsInfix(s[..i], m, s[i + |m|..], p);
    assert s == s[..i] + m + s[i + |m|..];
  }

  /** Every string contains itself, so `b in a + b + c` always holds. */
  lemma ContainsPiece(a: string, b: string, c: string)
    ensures Contains(a + b + c, b)
  {
    assert Contains(b, b);
    ContainsInfix(a, b, c, b);
  }

  /** A concatenation contains both of its parts. */
  lemma ContainsParts(a: string, b: string)
    ensures Contains(a + b, a) && Contains(a + b, b)
  {
    ContainsIffOccurs(a + b, a);
    assert a <= (a + b)[0..];
    ContainsIffOccurs(a + b, b);
    assert b <= (a + b)[|a|..];
  }

  /** A text that starts with `c` has prefix `p` when `p` starts with `c`
      and the rest of the text has the rest of `p` as prefix. */
  lemma ConsPrefix(c: char, x: string, p: string)
    requires 0 < |p|
    ensures p <= [c] + x <==> p[0] == c && p[1..] <= x
  {
    if p[0] == c && p[1..] <= x {
      assert p == [c] + p[1..];
    }
  }

  /** `Contains` unfolded once on a text that starts with `c`. */
  lemma ContainsCons(c: char, x: string, p: string)
    ensures Contains([c] + x, p) <==> p <= [c] + x || Contains(x, p)
  {
    assert ([c] + x)[1..] == x;
  }

  /** Python's `s.split(c)[0]`: the text before the first `c`, or all of `s`. */
  function BeforeFirst(s: string, c: char): (r: string)
    ensures r <= s && c !in r
    ensures c in s ==> |r| < |s| && s[|r|] == c
    ensures c !in s ==> r == s
  {
    if |s| == 0 then ""
    else if s[0] == c then ""
    else [s[0]] + BeforeFirst(s[1..], c)
  }

  /** Python's `s.replace(c, "")` for a single character `c`. */
  function Without(s: string, c: char): (r: string)
    ensures c !in r && |r| <= |s|
    ensures c !in s ==> r == s
  {
    if |s| == 0 then ""
    else (if s[0] == c then "" else [s[0]]) + Without(s[1..], c)
  }

  /** Removing `c` from a text that has none except one at the end drops
      exactly that one. */
  lemma {:induction false} WithoutTrailing(s: string, c: char)
    requires c !in s
    ensures Without(s + [c], c) == s
    decreases |s|
  {
    var t := s + [c];
    if |s| == 0 {
      assert t[1..] == [];
    } else {
      assert t[0] == s[0] && t[1..] == s[1..] + [c];
      WithoutTrailing(s[1..], c);
      assert s == [s[0]] + s[1..];
    }
  }

  /** Python's `str.lower()` on one character, as far as it can give an
      ASCII letter: the ASCII capitals, and the Kelvin sign, which lowers
      to `k`. Other characters are kept, so they never equal an ASCII
      letter after lowering, as in Python. */
  function Lower(c: char): (l: char)
    ensures 'a' <= l <= 'z' ==> 'a' <= c <= 'z' || 'A' <= c <= 'Z' || (c == '\U{212A}' && l == 'k')
    ensures !('a' <= l <= 'z') ==> l == c
  {
    if 'A' <= c <= 'Z' then (c as int - 'A' as int + 'a' as int) as char
    else if c == '\U{212A}' then 'k'
    else c
  }

  /** `s.lower() == t` for a lower-case ASCII `t`. The only other character
      whose lower-case form is more than one character, U+0130, lowers to
      `i` and a combining dot, which no such `t` holds, so comparing
      character by character is exact. */
  predicate LowerEquals(s: string, t: string)
  {
    |s| == |t| && forall i :: 0 <= i < |s| ==> Lower(s[i]) == t[i]
  }

  predicate IsDigit(c: char) { '0' <= c <= '9' }

  predicate AllDigits(s: string) { forall i :: 0 <= i < |s| ==> IsDigit(s[i]) }

  function DigitChar(d: nat): (c: char)
    requires d < 10
    ensures IsDigit(c) && c as int - '0' as int == d
  {
    ('0' as int + d) as char
  }

  function DigitValue(c: char): (d: nat)
    requires IsDigit(c)
    ensures d < 10
  {
    c as int - '0' as int
  }

  /** Decimal text of a natural number, as `str(n)` writes it. */
  function NatToString(n: nat): (s: string)
    ensures 0 < |s| && AllDigits(s)
    decreases n
  {
    if n < 10 then [DigitChar(n)] else NatToString(n / 10) + [DigitChar(n % 10)]
  }

  /** Decimal text of an integer, as `f"{n}"` writes it. */
  function IntToString(n: int): (s: string)
    ensures 0 < |s|
    ensures 'k' !in s
  {
    if n < 0 then "-" + NatToString(-n) else NatToString(n)
  }

  /** The value of a string of decimal digits. */
  function ParseNat(s: string): nat
    requires AllDigits(s)
    decreases |s|
  {
    if |s| == 0 then 0 else 10 * ParseNat(s[..|s| - 1]) + DigitValue(s[|s| - 1])
  }

  /** Reading back an optionally signed decimal integer text; `None` for
      any text that is not one. */
  function ParseInt(s: string): Option<int>
  {
    if 0 < |s| && s[0] == '-' then
      if 1 < |s| && AllDigits(s[1..]) then Some(-(ParseNat(s[1..]) as int)) else None
    else if 0 < |s| && AllDigits(s) then Some(ParseNat(s))
    else None
  }

  lemma {:induction false} ParseNatToString(n: nat)
    ensures ParseNat(NatToString(n)) == n
    decreases n
  {
    var s := NatToString(n);
    if 10 <= n {
      assert s[..|s| - 1] == NatToString(n / 10);
      ParseNatToString(n / 10);
    }
  }

  /** Rendering an integer and reading it back gives the same integer. */
  lemma ParseIntToString(n: int)
    ensures ParseInt(IntToString(n)) == Some(n)
  {
    var s := IntToString(n);
    if n < 0 {
      assert s[1..] == NatToString(-n);
      ParseNatToString(-n);
    } else {
      assert s[0] != '-';
      ParseNatToString(n);
    }
  }
}

=== FILE: transcode.dfy ===
/** The transcode planner of `convert_to_hevc` in youtube_downloader.py:
    bitrate and frame-rate targets taken from the chosen formats, the
    encoder-specific options, the ffmpeg command text built from them and the
    hardware profile, and the one software retry after a failed encode. */
module Transcode {
  import opened Common
  import opened Strings
  import opened Formats
  import opened Hardware

  /** What makes planning raise: `int(None)` or `None >= 2160` on a key that
      is present with `null`, or a max-rate text that is not a decimal
      integer. */
  datatype PlanError = NullField(key: string) | NotANumber(text: string)

  /** `f"{n}k"`. */
  function KbpsText(n: int): string
  {
    IntToString(n) + "k"
  }

  /** The default video bitrate by resolution, used when `tbr` is missing. */
  function HeightTierKbps(height: int): (kbps: int)
    ensures kbps in {2000, 4000, 8000, 15000, 30000}
    ensures kbps == 30000 <==> 2160 <= height
    ensures kbps == 15000 <==> 1440 <= height < 2160
    ensures kbps == 8000 <==> 1080 <= height < 1440
    ensures kbps == 4000 <==> 720 <= height < 1080
    ensures kbps == 2000 <==> height < 720
  {
    if height >= 2160 then 30000
    else if height >= 1440 then 15000
    else if height >= 1080 then 8000
    else if height >= 720 then 4000
    else 2000
  }

  /** A taller picture never gets a smaller default bitrate. */
  lemma TierMonotone(h1: int, h2: int)
    requires h1 <= h2
    ensures HeightTierKbps(h1) <= HeightTierKbps(h2)
  {
  }

  /** `video_bitrate` in kbps: the format's `tbr` when that key exists, else
      the height tier when `height` exists, else 8000. */
  function VideoBitrateKbps(video: Option<Format>): (r: Result<int, PlanError>)
    ensures r.Err? ==> r.error == NullField("tbr") || r.error == NullField("height")
    ensures r.Ok? ==>
      || r.value in {2000, 4000, 8000, 15000, 30000}
      || (video.Some? && video.value.tbr.Present? && r.value == Trunc(video.value.tbr.value))
  {
    if video.Some? && video.value.tbr.HasKey() then
      match video.value.tbr
      case Present(t) => Ok(Trunc(t))
      case _ => Err(NullField("tbr"))
    else if video.Some? && video.value.height.HasKey() then
      match video.value.height
      case Present(h) => Ok(HeightTierKbps(h))
      case _ => Err(NullField("height"))
    else Ok(8000)
  }

  /** `audio_bitrate` in kbps: `tbr` when that key exists, else a non-null
      `abr`, else 192. */
  function AudioBitrateKbps(audio: Option<Format>): (r: Result<int, PlanError>)
    ensures r.Err? ==> r.error == NullField("tbr")
    ensures r.Ok? ==>
      || r.value == 192
      || (audio.Some? && audio.value.tbr.Present? && r.value == Trunc(audio.value.tbr.value))
      || (audio.Some? && audio.value.abr.Present? && r.value == Trunc(audio.value.abr.value))
  {
    if audio.Some? && audio.value.tbr.HasKey() then
      match audio.value.tbr
      case Present(t) => Ok(Trunc(t))
      case _ => Err(NullField("tbr"))
    else if audio.Some? && audio.value.abr.Present? then Ok(Trunc(audio.value.abr.value))
    else Ok(192)
  }

  /** `fps`: the video format's non-null frame rate, carried through as is. */
  function FrameRate(video: Option<Format>): (r: Option<Fps>)
    ensures r.Some? <==> video.Some? && video.value.fps.Present?
    ensures r.Some? ==> video.value.fps == Present(r.value)
  {
    if video.Some? && video.value.fps.Present? then Some(video.value.fps.value) else None
  }

  datatype Plan = Plan(videoBitrate: string, audioBitrate: string, fps: Option<Fps>)

  /** The targets `convert_to_hevc` derives before it builds its command. */
  function PlanTranscode(video: Option<Format>, audio: Option<Format>): (r: Result<Plan, PlanError>)
    ensures r.Ok? <==> VideoBitrateKbps(video).Ok? && AudioBitrateKbps(audio).Ok?
    ensures r.Ok? ==>
      && r.value.videoBitrate == KbpsText(VideoBitrateKbps(video).value)
      && r.value.audioBitrate == KbpsText(AudioBitrateKbps(audio).value)
      && r.value.fps == FrameRate(video)
  {
    match VideoBitrateKbps(video)
    case Err(e) => Err(e)
    case Ok(vk) =>
      match AudioBitrateKbps(audio)
      case Err(e) => Err(e)
      case Ok(ak) => Ok(Plan(KbpsText(vk), KbpsText(ak), FrameRate(video)))
  }

  /** A known source bitrate is kept to the kbps: the planned video bitrate
      is the whole part of the format's `tbr`. */
  lemma KnownVideoBitrateKept(video: Format, t: real)
    requires video.tbr == Present(t) && 0.0 <= t
    ensures VideoBitrateKbps(Some(video)).Ok?
    ensures var k := VideoBitrateKbps(Some(video)).value; k as real <= t < k as real + 1.0
  {
  }

  /** The video bitrate falls back to the height tier only when `tbr` is
      missing, and to 8000 kbps only when both keys are missing or there is
      no video format; `null` in the key that decides makes planning raise. */
  lemma VideoBitrateSources(video: Option<Format>)
    ensures video.Some? && video.value.tbr.Present? ==>
      VideoBitrateKbps(video) == Ok(Trunc(video.value.tbr.value))
    ensures VideoBitrateKbps(video).Err? <==>
      video.Some? && (video.value.tbr == Null || (video.value.tbr == Absent && video.value.height == Null))
    ensures video.Some? && video.value.tbr == Absent && video.value.height.Present? ==>
      VideoBitrateKbps(video) == Ok(HeightTierKbps(video.value.height.value))
    ensures VideoBitrateKbps(video) == Ok(8000) <==>
      video == None || (video.value.tbr == Absent && video.value.height == Absent) ||
      (video.value.tbr.Present? && Trunc(video.value.tbr.value) == 8000) ||
      (video.value.tbr == Absent && video.value.height.Present? &&
       1080 <= video.value.height.value < 1440)
  {
  }

  /** With no `tbr`, a 2160p video is planned at `30000k` and a 480p one
      at `2000k`, whatever the audio bitrate is. */
  lemma PlanByHeightTier(video: Format, audio: Option<Format>)
    requires video.tbr == Absent && AudioBitrateKbps(audio).Ok?
    ensures video.height == Present(2160) ==>
      PlanTranscode(Some(video), audio).Ok? && PlanTranscode(Some(video), audio).value.videoBitrate == "30000k"
    ensures video.height == Present(480) ==>
      PlanTranscode(Some(video), audio).Ok? && PlanTranscode(Some(video), audio).value.videoBitrate == "2000k"
  {
    assert NatToString(30000) == "30000" by {
      assert NatToString(3) == "3";
      assert NatToString(30) == "30";
      assert NatToString(300) == "300";
      assert NatToString(3000) == "3000";
    }
    assert NatToString(2000) == "2000" by {
      assert NatToString(2) == "2";
      assert NatToString(20) == "20";
      assert NatToString(200) == "200";
    }
  }

  /** `tbr` takes precedence over `abr`, and 192 kbps is used only when the
      audio format has neither (or there is no audio format). */
  lemma AudioBitratePrecedence(audio: Option<Format>)
    ensures audio.Some? && audio.value.tbr.Present? ==>
      AudioBitrateKbps(audio) == Ok(Trunc(audio.value.tbr.value))
    ensures AudioBitrateKbps(audio).Err? <==> audio.Some? && audio.value.tbr == Null
    ensures audio.Some? && audio.value.tbr == Absent && audio.value.abr.Present? ==>
      AudioBitrateKbps(audio) == Ok(Trunc(audio.value.abr.value))
    ensures audio == None || (audio.value.tbr == Absent && !audio.value.abr.Present?) ==>
      AudioBitrateKbps(audio) == Ok(192)
  {
  }

  /** The NVENC `-maxrate:v` value: the video bitrate text with its `k`
      removed, read as a float, times 1.5, truncated. */
  function MaxRateKbps(videoBitrate: string): (r: Result<int, PlanError>)
    ensures r.Err? <==> ParseInt(Without(videoBitrate, 'k')).None?
    ensures r.Err? ==> r.error == NotANumber(Without(videoBitrate, 'k'))
  {
    match ParseInt(Without(videoBitrate, 'k'))
    case Some(n) => Ok(Trunc(n as real * 1.5))
    case None => Err(NotANumber(Without(videoBitrate, 'k')))
  }

  /** Removing the `k` of a planned bitrate gives back the integer text. */
  lemma KbpsTextWithoutK(n: int)
    ensures Without(KbpsText(n), 'k') == IntToString(n)
  {
    WithoutTrailing(IntToString(n), 'k');
  }

  lemma {:induction false} TruncThreeHalves(n: int)
    requires 0 <= n
    ensures Trunc(n as real * 1.5) == (3 * n) / 2
  {
    var q, m := (3 * n) / 2, (3 * n) % 2;
    assert 3 * n == 2 * q + m;
    assert n as real * 1.5 == q as real + m as real / 2.0;
  }

  /** For a planned bitrate the max-rate is 1.5 times it, rounded down, and
      never below it. */
  lemma MaxRateOfPlannedBitrate(n: int)
    ensures MaxRateKbps(KbpsText(n)) == Ok(Trunc(n as real * 1.5))
    ensures 0 <= n ==> MaxRateKbps(KbpsText(n)) == Ok((3 * n) / 2) && n <= (3 * n) / 2
  {
    KbpsTextWithoutK(n);
    ParseIntToString(n);
    if 0 <= n {
      TruncThreeHalves(n);
    }
  }

  // The intended reading of the bitrate keys: a `null` value counts as a
  // missing one, as the planner already does for `abr` and `fps`.

  /** `video_bitrate` in kbps when a `null` `tbr` or `height` is skipped. */
  function IntendedVideoBitrateKbps(video: Option<Format>): (k: int)
    ensures VideoBitrateKbps(video).Ok? ==> VideoBitrateKbps(video).value == k
    ensures video.Some? && !video.value.tbr.Present? && !video.value.height.Present? ==> k == 8000
    ensures video.Some? && !video.value.tbr.Present? && video.value.height.Present? ==>
      k == HeightTierKbps(video.value.height.value)
  {
    if video.Some? && video.value.tbr.Present? then Trunc(video.value.tbr.value)
    else if video.Some? && video.value.height.Present? then HeightTierKbps(video.value.height.value)
    else 8000
  }

  /** `audio_bitrate` in kbps when a `null` `tbr` is skipped. */
  function IntendedAudioBitrateKbps(audio: Option<Format>): (k: int)
    ensures AudioBitrateKbps(audio).Ok? ==> AudioBitrateKbps(audio).value == k
    ensures audio.Some? && !audio.value.tbr.Present? && audio.value.abr.Present? ==>
      k == Trunc(audio.value.abr.value)
    ensures audio.None? || (!audio.value.tbr.Present? && !audio.value.abr.Present?) ==> k == 192
  {
    if audio.Some? && audio.value.tbr.Present? then Trunc(audio.value.tbr.value)
    else if audio.Some? && audio.value.abr.Present? then Trunc(audio.value.abr.value)
    else 192
  }

  /** The planner with `null` read as missing: it never raises. */
  function IntendedPlanTranscode(video: Option<Format>, audio: Option<Format>): (p: Plan)
    ensures PlanTranscode(video, audio).Ok? ==> PlanTranscode(video, audio).value == p
  {
    Plan(KbpsText(IntendedVideoBitrateKbps(video)), KbpsText(IntendedAudioBitrateKbps(audio)), FrameRate(video))
  }

  /** A 1080p video stream whose `tbr` key is present with `null`, which
      the `'tbr' in` test accepts. */
  function NullTbrVideo(): Format
  {
    Format("137", Present("avc1.640028"), Present("none"), Present(1080), Null, Absent, Absent)
  }

  function AudioAt160(): Format
  {
    Format("140", Present("none"), Present("mp4a.40.2"), Absent, Present(160.0), Absent, Absent)
  }

  /** As written, the `null` `tbr` reaches `int(None)` and the conversion is
      abandoned; with `null` read as missing, the height tier gives 8000 kbps
      and the audio keeps its 160 kbps. */
  lemma NullTbrAbortsPlanning()
    ensures PlanTranscode(Some(NullTbrVideo()), Some(AudioAt160())) == Err(NullField("tbr"))
    ensures IntendedPlanTranscode(Some(NullTbrVideo()), Some(AudioAt160())) == Plan("8000k", "160k", None)
  {
    assert Trunc(160.0) == 160;
    assert NatToString(8000) == "8000" by {
      assert NatToString(8) == "8";
      assert NatToString(80) == "80";
      assert NatToString(800) == "800";
    }
    assert NatToString(160) == "160" by {
      assert NatToString(1) == "1";
      assert NatToString(16) == "16";
    }
  }

  /** The same two formats are what the selector picks from such a
      listing, so the abandoned conversion is reached from a plain
      one-video, one-audio listing. */
  lemma NullTbrListingIsSelected()
    ensures BestFormats(OfKind([NullTbrVideo(), AudioAt160()], VideoOnly),
                        OfKind([NullTbrVideo(), AudioAt160()], AudioOnly))
      == Selection(Some(NullTbrVideo()), Some(AudioAt160()))
  {
    var v, a := NullTbrVideo(), AudioAt160();
    assert Classify(v) == VideoOnly && Classify(a) == AudioOnly;
    var fs := [v, a];
    assert fs[..1] == [v] && [v][..0] == [];
    assert OfKind([v], VideoOnly) == [v] && OfKind([v], AudioOnly) == [];
    assert OfKind(fs, VideoOnly) == [v];
    assert OfKind(fs, AudioOnly) == [a];
  }

  /** `-b:v <bitrate> `. */
  function BitrateArg(videoBitrate: string): string
  {
    "-b:v " + videoBitrate + " "
  }

  /** `-maxrate:v <kbps>k `. */
  function MaxRateArg(kbps: int): string
  {
    "-maxrate:v " + KbpsText(kbps) + " "
  }

  /** The option text appended for the chosen encoder: one `if`/`elif`
      branch per known encoder name, nothing for an unknown one. */
  function EncoderArgs(encoder: string, videoBitrate: string): (r: Result<string, PlanError>)
    ensures r.Err? ==> encoder == "hevc_nvenc" && MaxRateKbps(videoBitrate).Err?
    ensures encoder !in {"libx265", "hevc_nvenc", "hevc_videotoolbox", "hevc_amf", "hevc_qsv", "hevc_vaapi"} ==>
      r == Ok("")
  {
    if encoder == "libx265" then Ok("-crf 22 -preset medium -tag:v hvc1 ")
    else if encoder == "hevc_nvenc" then
      match MaxRateKbps(videoBitrate)
      case Ok(m) => Ok("-rc:v vbr -cq:v 22 " + BitrateArg(videoBitrate) + MaxRateArg(m))
      case Err(e) => Err(e)
    else if encoder == "hevc_videotoolbox" then Ok("-q:v 50 " + BitrateArg(videoBitrate) + "-tag:v hvc1 ")
    else if encoder == "hevc_amf" then Ok("-quality quality " + BitrateArg(videoBitrate))
    else if encoder == "hevc_qsv" then Ok(BitrateArg(videoBitrate) + "-global_quality 22 ")
    else if encoder == "hevc_vaapi" then Ok(BitrateArg(videoBitrate) + "-global_quality 22 ")
    else Ok("")
  }

  /** For every profile the detector can return, the options are produced
      without error: the software encoder runs at constant quality 22 with
      no bitrate of its own, and each hardware encoder gets its fixed
      quality options around the planned bitrate (NVENC also a max-rate of
      1.5 times it). */
  lemma EncoderArgsOfProfiles(b: Backend, n: int)
    ensures var r := EncoderArgs(Profile(b).encoder, KbpsText(n));
      && r.Ok?
      && (b == Software ==> r.value == "-crf 22 -preset medium -tag:v hvc1 ")
      && (b == Nvenc ==>
           r.value == "-rc:v vbr -cq:v 22 " + BitrateArg(KbpsText(n)) + MaxRateArg(Trunc(n as real * 1.5)))
      && (b == Nvenc && 0 <= n ==>
           r.value == "-rc:v vbr -cq:v 22 " + BitrateArg(KbpsText(n)) + MaxRateArg((3 * n) / 2))
      && (b == VideoToolbox ==> r.value == "-q:v 50 " + BitrateArg(KbpsText(n)) + "-tag:v hvc1 ")
      && (b == Amf ==> r.value == "-quality quality " + BitrateArg(KbpsText(n)))
      && (b == Qsv || b == Vaapi ==> r.value == BitrateArg(KbpsText(n)) + "-global_quality 22 ")
  {
    if b == Nvenc {
      MaxRateOfPlannedBitrate(n);
    }
  }

  /** An option text with the bitrate argument in it. */
  lemma ArgsWithBitrate(encoder: string, vb: string, pre: string, post: string)
    requires EncoderArgs(encoder, vb) == Ok(pre + BitrateArg(vb) + post)
    ensures Contains(EncoderArgs(encoder, vb).value, BitrateArg(vb))
  {
    ContainsPiece(pre, BitrateArg(vb), post);
  }

  lemma NvencKeepsBitrate(n: int)
    ensures var r := EncoderArgs("hevc_nvenc", KbpsText(n));
      r.Ok? && Contains(r.value, BitrateArg(KbpsText(n)))
  {
    var vb := KbpsText(n);
    MaxRateOfPlannedBitrate(n);
    ArgsWithBitrate("hevc_nvenc", vb, "-rc:v vbr -cq:v 22 ", MaxRateArg(Trunc(n as real * 1.5)));
  }

  lemma VideoToolboxKeepsBitrate(vb: string)
    ensures var r := EncoderArgs("hevc_videotoolbox", vb);
      r.Ok? && Contains(r.value, BitrateArg(vb))
  {
    ArgsWithBitrate("hevc_videotoolbox", vb, "-q:v 50 ", "-tag:v hvc1 ");
  }

  lemma AmfKeepsBitrate(vb: string)
    ensures var r := EncoderArgs("hevc_amf", vb);
      r.Ok? && Contains(r.value, BitrateArg(vb))
  {
    assert "-quality quality " + BitrateArg(vb) == "-quality quality " + BitrateArg(vb) + "";
    ArgsWithBitrate("hevc_amf", vb, "-quality quality ", "");
  }

  lemma QsvVaapiKeepBitrate(encoder: string, vb: string)
    requires encoder == "hevc_qsv" || encoder == "hevc_vaapi"
    ensures var r := EncoderArgs(encoder, vb);
      r.Ok? && Contains(r.value, BitrateArg(vb))
  {
    assert BitrateArg(vb) + "-global_quality 22 " == "" + BitrateArg(vb) + "-global_quality 22 ";
    ArgsWithBitrate(encoder, vb, "", "-global_quality 22 ");
  }

  /** Every hardware encoder is given the planned video bitrate. */
  lemma HardwareEncodersKeepBitrate(b: Backend, n: int)
    requires b != Software
    ensures var r := EncoderArgs(Profile(b).encoder, KbpsText(n));
      r.Ok? && Contains(r.value, BitrateArg(KbpsText(n)))
  {
    match b
    case Nvenc => NvencKeepsBitrate(n);
    case VideoToolbox => VideoToolboxKeepsBitrate(KbpsText(n));
    case Amf => AmfKeepsBitrate(KbpsText(n));
    case Qsv => QsvVaapiKeepBitrate(Profile(b).encoder, KbpsText(n));
    case Vaapi => QsvVaapiKeepBitrate(Profile(b).encoder, KbpsText(n));
  }

  /** NVENC is capped at 1.5 times the planned bitrate, which for a
      non-negative bitrate is never below it. */
  lemma NvencMaxRate(n: int)
    requires 0 <= n
    ensures var r := EncoderArgs(Profile(Nvenc).encoder, KbpsText(n));
      r.Ok? && Contains(r.value, MaxRateArg((3 * n) / 2)) && n <= (3 * n) / 2
  {
    var vb := KbpsText(n);
    MaxRateOfPlannedBitrate(n);
    ContainsPiece("-rc:v vbr -cq:v 22 " + BitrateArg(vb), MaxRateArg((3 * n) / 2), "");
    assert EncoderArgs(Profile(Nvenc).encoder, vb).value
      == "-rc:v vbr -cq:v 22 " + BitrateArg(vb) + MaxRateArg((3 * n) / 2) + "";
  }

  /** `str(hw_accel["hwaccel"])`: Python renders a missing one as `None`. */
  function HwaccelText(hwaccel: Option<string>): string
  {
    match hwaccel
    case Some(name) => name
    case None => "None"
  }

  /** One entry of `hw_accel["options"]`, quoted when it holds a space. */
  function OptionText(option: string): string
  {
    if ' ' in option then "\"" + option + "\" " else option + " "
  }

  function OptionsText(options: seq<string>): string
    decreases |options|
  {
    if |options| == 0 then ""
    else OptionsText(options[..|options| - 1]) + OptionText(options[|options| - 1])
  }

  /** `-r <fps> `, only when the frame rate is truthy (non-zero). */
  function FpsText(fps: Option<Fps>): string
  {
    if fps.Some? && fps.value.rate != 0.0 then "-r " + fps.value.shown + " " else ""
  }

  /** `-c:v <encoder> `. */
  function EncoderArg(encoder: string): string
  {
    "-c:v " + encoder + " "
  }

  /** `-c:a aac -b:a <bitrate> `. */
  function AudioArg(audioBitrate: string): string
  {
    "-c:a aac -b:a " + audioBitrate + " "
  }

  function CommandHead(tempFile: string, hw: HwProfile): string
  {
    "ffmpeg -hwaccel " + HwaccelText(hw.hwaccel) + " -i \"" + tempFile + "\" " + EncoderArg(hw.encoder)
  }

  function CommandTail(plan: Plan, extra: string, outFile: string): string
  {
    FpsText(plan.fps) + extra + AudioArg(plan.audioBitrate) + "\"" + outFile + "\""
  }

  /** The ffmpeg command text of `convert_to_hevc`. */
  function CommandText(tempFile: string, hw: HwProfile, plan: Plan, outFile: string): (r: Result<string, PlanError>)
    ensures r.Err? <==> EncoderArgs(hw.encoder, plan.videoBitrate).Err?
    ensures r.Ok? ==> "ffmpeg -hwaccel " <= r.value
  {
    match EncoderArgs(hw.encoder, plan.videoBitrate)
    case Err(e) => Err(e)
    case Ok(extra) => Ok(CommandHead(tempFile, hw) + OptionsText(hw.options) + CommandTail(plan, extra, outFile))
  }

  /** One more option adds its own text at the end. */
  lemma OptionsTextStep(start: string, options: seq<string>, i: int)
    requires 0 <= i < |options|
    ensures start + OptionsText(options[..i]) + OptionText(options[i]) == start + OptionsText(options[..i + 1])
  {
    assert options[..i + 1][..i] == options[..i];
  }

  /** The loop over `hw_accel["options"]`: one `+=` per option, quoted
      when it holds a space. */
  method AppendOptions(start: string, options: seq<string>) returns (cmd: string)
    ensures cmd == start + OptionsText(options)
  {
    cmd := start;
    var i := 0;
    while i < |options|
      invariant 0 <= i <= |options|
      invariant cmd == start + OptionsText(options[..i])
    {
      var option := options[i];
      var piece: string;
      if ' ' !in option {
        piece := option + " ";
      } else {
        piece := "\"" + option + "\" ";
      }
      assert piece == OptionText(option);
      OptionsTextStep(start, options, i);
      cmd := cmd + piece;
      i := i + 1;
    }
    assert options[..i] == options;
  }

  /** Building `cmd_str` step by step: the head, the options, the frame
      rate, the encoder's own options and the audio settings. */
  method BuildCommand(tempFile: string, hw: HwProfile, plan: Plan, outFile: string)
    returns (r: Result<string, PlanError>)
    ensures r == CommandText(tempFile, hw, plan, outFile)
  {
    var head := "ffmpeg -hwaccel " + HwaccelText(hw.hwaccel) + " -i \"" + tempFile + "\" " + "-c:v " + hw.encoder + " ";
    assert head == CommandHead(tempFile, hw);
    var cmd := AppendOptions(head, hw.options);
    var fpsArg := "";
    if plan.fps.Some? && plan.fps.value.rate != 0.0 {
      fpsArg := "-r " + plan.fps.value.shown + " ";
    }
    var extra := EncoderArgs(hw.encoder, plan.videoBitrate);
    if extra.Err? {
      return Err(extra.error);
    }
    var tail := fpsArg + extra.value + "-c:a aac -b:a " + plan.audioBitrate + " " + "\"" + outFile + "\"";
    assert tail == CommandTail(plan, extra.value, outFile);
    r := Ok(cmd + tail);
  }

  /** The command names the encoder and carries the encoder's own options,
      the audio bitrate and, when it is non-zero, the frame rate. */
  lemma CommandPieces(tempFile: string, hw: HwProfile, plan: Plan, outFile: string)
    requires EncoderArgs(hw.encoder, plan.videoBitrate).Ok?
    ensures var r := CommandText(tempFile, hw, plan, outFile);
      && r.Ok?
      && Contains(r.value, EncoderArg(hw.encoder))
      && Contains(r.value, EncoderArgs(hw.encoder, plan.videoBitrate).value)
      && Contains(r.value, AudioArg(plan.audioBitrate))
      && (plan.fps.Some? && plan.fps.value.rate != 0.0 ==> Contains(r.value, "-r " + plan.fps.value.shown + " "))
  {
    var extra := EncoderArgs(hw.encoder, plan.videoBitrate).value;
    var head, opts := CommandHead(tempFile, hw), OptionsText(hw.options);
    var tail := CommandTail(plan, extra, outFile);
    var cmd := head + opts + tail;
    assert CommandText(tempFile, hw, plan, outFile) == Ok(cmd);
    ContainsParts(head + opts, tail);
    ContainsParts(head, opts);
    ContainsTransitive(cmd, head + opts, head);
    ContainsParts("ffmpeg -hwaccel " + HwaccelText(hw.hwaccel) + " -i \"" + tempFile + "\" ", EncoderArg(hw.encoder));
    ContainsTransitive(cmd, head, EncoderArg(hw.encoder));
    var fps, aud := FpsText(plan.fps), AudioArg(plan.audioBitrate);
    var upToAudio := fps + extra + aud;
    ContainsParts(upToAudio + "\"", outFile);
    ContainsParts(upToAudio + "\"" + outFile, "\"");
    ContainsTransitive(tail, upToAudio + "\"" + outFile, upToAudio + "\"");
    ContainsParts(upToAudio, "\"");
    ContainsTransitive(tail, upToAudio + "\"", upToAudio);
    ContainsTransitive(cmd, tail, upToAudio);
    ContainsParts(fps + extra, aud);
    ContainsTransitive(cmd, upToAudio, aud);
    ContainsTransitive(cmd, upToAudio, fps + extra);
    ContainsParts(fps, extra);
    ContainsTransitive(cmd, fps + extra, extra);
    ContainsTransitive(cmd, fps + extra, fps);
  }

  /** What the command carries for a planned conversion: the chosen
      encoder, the planned audio bitrate, and the planned video bitrate for
      every hardware encoder. */
  lemma CommandCarriesPlan(tempFile: string, b: Backend, n: int, plan: Plan, outFile: string)
    requires plan.videoBitrate == KbpsText(n)
    ensures var r := CommandText(tempFile, Profile(b), plan, outFile);
      && r.Ok?
      && Contains(r.value, EncoderArg(Profile(b).encoder))
      && Contains(r.value, AudioArg(plan.audioBitrate))
      && (b != Software ==> Contains(r.value, BitrateArg(plan.videoBitrate)))
  {
    EncoderArgsOfProfiles(b, n);
    CommandPieces(tempFile, Profile(b), plan, outFile);
    if b != Software {
      HardwareEncodersKeepBitrate(b, n);
      ContainsTransitive(CommandText(tempFile, Profile(b), plan, outFile).value,
                         EncoderArgs(Profile(b).encoder, plan.videoBitrate).value,
                         BitrateArg(plan.videoBitrate));
    }
  }

  /** The software profile has no hwaccel, and the command names it with
      the text Python gives `None`: it starts `ffmpeg -hwaccel None `. */
  lemma SoftwareCommandNamesNoneHwaccel(tempFile: string, plan: Plan, outFile: string)
    ensures var r := CommandText(tempFile, Profile(Software), plan, outFile);
      r.Ok? && "ffmpeg -hwaccel None " <= r.value
  {
  }

  // ffmpeg looks up the name after `-hwaccel` among its own lower-case
  // names (`none`, `auto`, and the device types) with an exact, case
  // sensitive comparison, and stops with an error on an unknown one.

  predicate HasUpperAscii(s: string)
  {
    exists i :: 0 <= i < |s| && 'A' <= s[i] <= 'Z'
  }

  /** As written, the software profile's hwaccel text has a capital letter,
      so ffmpeg does not recognise it, and the guard at the retry never
      retries the software encoder. */
  lemma SoftwareHwaccelNotAName()
    ensures HasUpperAscii(HwaccelText(Profile(Software).hwaccel))
    ensures !ShouldRetryInSoftware(Profile(Software).encoder)
  {
    assert HwaccelText(Profile(Software).hwaccel)[0] == 'N';
  }

  /** The hwaccel text meant for each back end: ffmpeg's `none` when the
      profile has no hardware decoder, and the profile's own name
      otherwise. */
  function IntendedHwaccelText(b: Backend): (name: string)
    ensures b != Software ==> name == HwaccelText(Profile(b).hwaccel)
    ensures !HasUpperAscii(name)
  {
    if b == Software then "none" else HwaccelText(Profile(b).hwaccel)
  }

  /** The planning and command-building part of `convert_to_hevc`: the
      targets, the detected profile and the command text, or the exception
      that aborts the conversion. */
  datatype ConvertError = PlanFailed(plan: PlanError) | DetectFailed(detect: DetectError)

  method PrepareConversion(tempFile: string, outFile: string, video: Option<Format>, audio: Option<Format>,
                           system: string, probes: Probes)
    returns (r: Result<string, ConvertError>)
    ensures r.Ok? <==> PlanTranscode(video, audio).Ok? && DetectHardwareAcceleration(system, probes).Ok?
    ensures r.Ok? ==>
      CommandText(tempFile, Profile(DetectHardwareAcceleration(system, probes).value),
                  PlanTranscode(video, audio).value, outFile) == Ok(r.value)
  {
    var plan := PlanTranscode(video, audio);
    if plan.Err? {
      return Err(PlanFailed(plan.error));
    }
    var detected := DetectHardwareAcceleration(system, probes);
    if detected.Err? {
      return Err(DetectFailed(detected.error));
    }
    EncoderArgsOfProfiles(detected.value, VideoBitrateKbps(video).value);
    var cmd := BuildCommand(tempFile, Profile(detected.value), plan.value, outFile);
    r := Ok(cmd.value);
  }

  /** How one ffmpeg run ended: with an exit code, or with an exception. */
  datatype RunOutcome = Finished(code: int) | Raised

  /** Encoders tried, in order, and whether a converted file came out. */
  datatype Conversion = Conversion(encoders: seq<string>, converted: bool)

  /** The guard in front of `convert_to_hevc_fallback`. */
  predicate ShouldRetryInSoftware(encoder: string)
    ensures ShouldRetryInSoftware(encoder) <==> encoder != Profile(Software).encoder
  {
    encoder != "libx265"
  }

  /** The encode step of `convert_to_hevc`: the primary run, and on a
      non-zero exit or an exception, one software run when the guard allows. */
  function ConvertOutcome(encoder: string, primary: RunOutcome, fallback: RunOutcome): (c: Conversion)
    ensures 1 <= |c.encoders| <= 2 && c.encoders[0] == encoder
    ensures c.converted ==> primary == Finished(0) || fallback == Finished(0)
  {
    if primary == Finished(0) then Conversion([encoder], true)
    else if ShouldRetryInSoftware(encoder) then Conversion([encoder, "libx265"], fallback == Finished(0))
    else Conversion([encoder], false)
  }

  /** At most one fallback per run: the software encoder is tried at most
      once, only after the chosen encoder failed, and never when the chosen
      encoder already was the software one; success means the last run
      exited with 0. */
  lemma AtMostOneSoftwareRetry(encoder: string, primary: RunOutcome, fallback: RunOutcome)
    ensures var c := ConvertOutcome(encoder, primary, fallback);
      && 1 <= |c.encoders| <= 2 && c.encoders[0] == encoder
      && (forall i, j :: 0 <= i < j < |c.encoders| ==> c.encoders[i] != c.encoders[j])
      && (|c.encoders| == 2 <==> primary != Finished(0) && encoder != "libx265")
      && (|c.encoders| == 2 ==> c.encoders[1] == "libx265")
      && (c.converted <==> (if |c.encoders| == 1 then primary else fallback) == Finished(0))
  {
  }
}
